=== FILE: README.md ===
# go-lox expression front end, modelled in Dafny

go-lox runs a tiny expression language in three stages:

- The **scanner** turns source text into tokens. Each token has a kind, a lexeme, a literal and a line. The stream always ends in one EOF token, and lexical errors are collected alongside it.
- A recursive-descent **parser** reads one expression from the tokens. It has four left-associative binary levels (equality, comparison, term, factor), then unary `-`/`!`, then primaries.
- A tree-walking **interpreter** reduces the tree to a value: a number, a string, a boolean or nil.

A diagnostic **AST printer** writes trees in parenthesised prefix form.

The model is pure and functional:

- The scanner's mutable cursor becomes `ScanToken(src, start, line)`, which returns one `Step`. A recursive `ScanFrom` chains the steps. `ScanTokensLoop` is the source's loop, proved to agree with `ScanFrom`.
- The parser's panics become `Result` values threaded with `:-`.
- The interpreter's panics become `RuntimeError` results.
- Values are a datatype: `Num(real) | Str | Bool | Null`.

Files:

| file | modules | contents |
|---|---|---|
| `wrappers.dfy` | `Wrappers` | `Option` and `Result` |
| `values.dfy` | `Values` | runtime values |
| `tokens.dfy` | `Tokens` | token kinds, keyword table, tokens |
| `scanner.dfy` | `Scanner` | the scanner |
| `scanner_props.dfy` | `ScannerProperties` | what a scan yields |
| `ast.dfy` | `Ast`, `AstPrinter` | trees and the printer |
| `printer_props.dfy` | `PrinterProperties` | the printer's parenthesis count |
| `parser.dfy` | `Parser` | the parser |
| `parser_props.dfy` | `ParserProperties` | parsed trees are exactly the canonical trees, with a round trip through tokens |
| `interpreter.dfy` | `Interpreter` | the evaluator |
| `interpreter_props.dfy` | `InterpreterProperties` | a static kind check that predicts evaluation |
| `examples.dfy` | `Examples` | the stages together, and worked examples |

Where the Go code departs from the Lox language it implements, the model follows the code:

- The scanner's line counter starts at 0, not 1.
- The parser reads the keyword `nil` as the string value `"null"`. So `!nil` evaluates to `false`, not `true`, and a parsed tree never evaluates to nil.
- `or` and `and` evaluate both operands.
- A successful parse ignores any tokens after the expression.

Each of these is stated as a lemma below.

## Model

| member | source | states |
|---|---|---|
| Scanner.RunEnd | scanner.go:206-209 | A `for p(peek()) advance()` loop stops at the first character failing `p`, or at the end of the source; every character it passed satisfies `p` |
| Scanner.ScanString | scanner.go:217-230 | A string lexeme yields exactly one of a token or an error. The line advances by the newlines consumed. A token is emitted for the consumed slice, and the error carries the current line |
| Scanner.NumberEnd | scanner.go:232-240 | The number lexeme is non-empty and consists of digits and dots only |
| Scanner.ScanNumber | scanner.go:232-244 | A number lexeme always yields a token and no error; the token is emitted for the consumed slice |
| Scanner.ScanIdentifier | scanner.go:206-215 | An identifier lexeme always yields a token and no error; the token is emitted for the consumed slice |
| Scanner.TwoChar | scanner.go:155-178 | A one-or-two-character operator yields one token for the consumed slice |
| Scanner.ScanToken | scanner.go:130-204 | One lexeme consumes at least one character and counts its newlines into the line. It never yields both a token and an error. A token is emitted for its slice, with the lexeme and a literal of the right kind. An error carries the current line |
| Scanner.ScanFrom | scanner.go:118-128 | The token list ends with exactly one EOF token, carrying the line reached after counting every newline |
| Scanner.ScanTokens | scanner.go:118-128 | A whole-source scan ends with exactly one EOF token, on the line equal to the number of newlines in the source |
| Scanner.ScanTokensLoop | scanner.go:118-128 | The source's imperative loop collects exactly the tokens and errors of the recursive scan |
| Scanner.ScanStep | scanner.go:118-122 | Scanning from a lexeme equals collecting that lexeme's token or error, then scanning from where it ended |
| ScannerProperties.SpansStep | scanner.go:118-122 | The token spans of a scan are the first lexeme's span, if it emitted a token, followed by the spans of the rest |
| ScannerProperties.SpanCount | scanner.go:118-128 | Every token except the final EOF has exactly one source span |
| ScannerProperties.SpansOrdered | scanner.go:118-122 | Token spans are non-empty, lie after the starting point, and appear in source order without overlap |
| ScannerProperties.TokenMatchesSpan | scanner.go:281-288 | Token i's lexeme is its span's slice of the source, and its line counts the newlines up to that span's end |
| ScannerProperties.TokensAreSourceSlices | scanner.go:281-288 | All non-EOF tokens together: each is its own ordered, non-overlapping source slice, on the line reached when it was emitted |
| ScannerProperties.ScannedLiteralsTyped | scanner.go:217-244 | In every scan, NUMBER tokens carry numbers and STRING tokens carry strings |
| ScannerProperties.TokenLines | scanner.go:189-191 | On a whole source, a token's line is the number of newlines before its end |
| ScannerProperties.UnterminatedStringScan | scanner.go:217-227 | An unclosed quote swallows the rest of the source: the scan yields only EOF and one "Unterminated string." error |
| ScannerProperties.OperatorMunch | scanner.go:155-178 | `!`, `=`, `<` and `>` take a following `=` (the two-character kind) and otherwise stand alone |
| ScannerProperties.SingleCharacter | scanner.go:134-153 | Each punctuation character is a one-character token of its kind with no literal |
| ScannerProperties.LineComment | scanner.go:180-184 | `//` skips up to the next newline or the end of the source, without a token or an error |
| ScannerProperties.LoneSlash | scanner.go:180-187 | A `/` not followed by `/` is the SLASH token |
| ScannerProperties.Whitespace | scanner.go:188-191 | Space, tab and CR are skipped; a newline is skipped and increments the line |
| ScannerProperties.ClosedString | scanner.go:217-230 | A closed string is one STRING token: the lexeme includes the quotes, the literal is the text between them, and the line counts the embedded newlines |
| ScannerProperties.UnterminatedStringStep | scanner.go:217-227 | An unclosed quote consumes to the end of the source and yields an error on the line reached there |
| ScannerProperties.NumberToken | scanner.go:232-244 | A digit starts a NUMBER token whose literal is the lexeme's decimal value |
| ScannerProperties.DecimalValueMeans | scanner.go:242 | Scanner.DecimalValue: digits alone are their decimal value; with a fraction, the value times ten to the number of fraction digits is the value of the digits with the dot taken out |
| ScannerProperties.DigitsAppend | scanner.go:242 | Appending digits to a digit run shifts its value one decimal place per digit |
| ScannerProperties.NumberEndShape | scanner.go:232-240 | A number lexeme is digits, optionally followed by `.` and more digits. It is maximal, and a `.` with no digit after it is not taken |
| ScannerProperties.IdentifierToken | scanner.go:206-215 | A letter or `_` starts a maximal alphanumeric run. The run is a keyword's kind exactly when it is in the reserved-word table; otherwise it is IDENTIFIER |
| ScannerProperties.UnexpectedCharacterStep | scanner.go:195-202 | Any other ASCII character is skipped with one "Unexpected character." error |
| Parser.NatToString | parser.go:178-180 | The line number in an error text is decimal digits without leading zeros |
| Parser.Consume | parser.go:135-140 | Consume succeeds exactly when the current token has the expected kind (never EOF), and then steps past it. Otherwise it fails on the current token with the message |
| Parser.Expression | parser.go:46-48 | An expression consumes at least one token and never passes EOF. A failure blames a token at or after the cursor |
| Parser.BinaryLevel | parser.go:51-100 | The same guarantee as Expression, for each binary level; LevelFailure states that a failing first operand is the level's error |
| Parser.LevelOperand | parser.go:51-100 | The same guarantee as Expression, for a level's operand |
| Parser.FoldLevel | parser.go:53-59 | A level's loop never moves backwards or past EOF. A failure blames a token at or after the cursor; FoldFailure states that it is the failing right operand's error |
| Parser.UnaryLevel | parser.go:103-111 | The same guarantee as Expression, for unary; UnaryFailure states that after `-` or `!` the operand's error is the result |
| Parser.Primary | parser.go:114-133 | The same guarantee as Expression, for primary; which tokens it accepts and rejects is stated by PrimarySpelled, NoExpressionStart and GroupFailure |
| Parser.Parse | parser.go:36-44 | A parse error names a token of the input. ParseCharacterised states which trees a parse returns. NoExpressionStart, GroupFailure, OperandFailure, LevelFailure, FoldFailure and UnaryFailure state which error it reports, wherever the bad token is |
| ParserProperties.LevelOf | parser.go:51-100 | The four levels' operator sets are disjoint; each operator kind belongs to exactly one level |
| ParserProperties.ParsedIsCanonical | parser.go:36-133 | Every tree parsed from tokens whose literals match their kinds (as scanned tokens do) is canonical. Binary operands bind at least as tightly as their operator's level on the left, strictly more tightly on the right, so the tree is left-associative. Unary operands are unary or primary. No literal is nil |
| ParserProperties.ExpressionCanonical | parser.go:46-48 | An expression's tree is canonical |
| ParserProperties.LevelCanonical | parser.go:51-100 | A level's tree is canonical and binds at least as tightly as the level |
| ParserProperties.OperandCanonical | parser.go:51-100 | A level's operand is canonical and binds more tightly than the level |
| ParserProperties.FoldCanonical | parser.go:53-59 | Folding canonical operands left keeps the tree canonical and at least as tight as the level |
| ParserProperties.UnaryCanonical | parser.go:103-111 | A unary tree is canonical and binds at least as tightly as unary |
| ParserProperties.PrimaryCanonical | parser.go:114-133 | A primary tree is canonical and binds as tightly as a literal or group. `nil` is read as "null", never as a nil literal |
| ParserProperties.TerminatedMeans | parser.go:142-155 | The parser's input requirement holds exactly when an EOF token lies at or after the cursor |
| ParserProperties.ExpressionRoundTrip | parser.go:46-48 | Tokens spelling a canonical tree, followed by a non-operator, parse back to that tree and stop right after it |
| ParserProperties.LevelRoundTrip | parser.go:51-100 | The same round trip for a level, for canonical trees at least as tight as the level |
| ParserProperties.LevelPrefix | parser.go:51-100 | A level reads a tree at least as tight as itself, then continues its loop after it |
| ParserProperties.BinaryPrefix | parser.go:51-100 | A binary tree at its own level is read by reading its left operand, then folding its operator and right operand |
| ParserProperties.FoldStep | parser.go:53-59 | One loop iteration consumes an operator and an operand and makes them the right side of a new left-nested node |
| ParserProperties.OperandRoundTrip | parser.go:51-100 | The same round trip for a level's operand |
| ParserProperties.UnaryRoundTrip | parser.go:103-111 | The same round trip for unary: a `-` or `!` token applies to the unary tree after it |
| ParserProperties.PrimaryRoundTrip | parser.go:114-133 | The same round trip for literals and groups |
| ParserProperties.GroupingRoundTrip | parser.go:127-131 | `(` tokens of a tree `)` parse to the group of that tree |
| ParserProperties.PrimaryGroup | parser.go:127-131 | A `(`, a parsed expression and a `)` form a group ending after the `)` |
| ParserProperties.ParseSpelled | parser.go:36-44 | A whole parse of tokens spelling a canonical tree returns that tree |
| ParserProperties.OperandFailure | parser.go:51-111 | An error in the leading unary expression is the error of every level above it |
| ParserProperties.LevelFailure | parser.go:51-100 | A level whose first operand fails returns that operand's error |
| ParserProperties.FoldFailure | parser.go:53-59 | After a level's operator, a failing right operand's error is the loop's error, not one on the operator |
| ParserProperties.UnaryFailure | parser.go:103-111 | After `-` or `!`, a failing operand's error is the unary expression's error, not one on the operator |
| ParserProperties.NoExpressionStart | parser.go:114-133 | A token that is no literal, `(`, `-` or `!` fails the whole expression with "Expect expression" on that token |
| ParserProperties.GroupFailure | parser.go:127-140 | An error inside `( … )` is the group's and the expression's error; any token other than `)` after the inner expression fails both with "Expect ')' after expression." on that token |
| ParserProperties.ExpressionSpelled | parser.go:46-48 | A parsed expression is spelled by the tokens it consumed, ending where the parse stopped, and the next token is no binary operator |
| ParserProperties.LevelSpelled | parser.go:51-100 | A level's tree is spelled by the tokens it consumed, and the level stops at a token that is no operator of its level or a tighter one |
| ParserProperties.OperandSpelled | parser.go:51-100 | A level's operand is spelled by the tokens it consumed and stops at no operator of a tighter level |
| ParserProperties.FoldSpelled | parser.go:53-59 | Each loop iteration extends the spelled tree by an operator and an operand; the loop stops at no operator of its level or a tighter one |
| ParserProperties.UnarySpelled | parser.go:103-111 | A unary tree is spelled by the tokens it consumed |
| ParserProperties.PrimarySpelled | parser.go:114-133 | A primary is one literal token read as its value, or `(`, a spelled expression and `)` |
| ParserProperties.ParsedIsSpelled | parser.go:36-133 | A whole parse of literal-typed tokens returns a canonical tree spelled from the first token, followed by a token that is no binary operator |
| ParserProperties.ParseCharacterised | parser.go:36-133 | A whole parse of literal-typed tokens returns `e` exactly when `e` is canonical, the tokens spell it from the start, and the token after it is no binary operator |
| ParserProperties.UnparseSpells | parser.go:182-218 | Writing a canonical tree back out as tokens spells it, using exactly its width in tokens |
| ParserProperties.ParseUnparse | parser.go:36-133 | Round trip: a canonical tree written as tokens parses back to itself, whatever follows, provided the next token is not a binary operator |
| ParserProperties.NatToStringValue | parser.go:178-180 | The decimal line number in an error text reads back as the line itself |
| ParserProperties.ErrorTextFields | parser.go:178-180 | An error text (Parser.ErrorText) reads back field by field: the lexeme, a space, the kind's name, a space, digits that read back as the line, ` at '`, the message, and a closing `'` |
| PrinterProperties.PrintLiteral | parser.go:242-247 | A literal (AstPrinter.PrintExpr with AstPrinter.Show) prints as `nil` when it holds no value, as `true` or `false`, as a string's characters without quotes, and as a number's `%v` text |
| PrinterProperties.PrintBinary | parser.go:234-236 | A binary node prints as `(op left right)` |
| PrinterProperties.PrintUnary | parser.go:249-251 | A unary node prints as `(op right)` |
| PrinterProperties.PrintGrouping | parser.go:238-240 | A group prints as `(group inner)` |
| PrinterProperties.ParenthesizeCount | parser.go:253-263 | Parenthesize adds one `(` and one `)` around its parts |
| PrinterProperties.PrintedParentheses | parser.go:227-263 | A printed tree has as many `(` and as many `)` as it has operator and group nodes, when no operator lexeme or literal's text contains a parenthesis |
| Interpreter.ApplyUnary | interpreter.go:33-45 | `-` needs a number, otherwise it fails with "Operand must be number". `!` is the negated truthiness of any value |
| Interpreter.NumberOperands | interpreter.go:98-104 | The operand check passes exactly when both operands are numbers |
| Interpreter.ApplyBinary | interpreter.go:47-96 | A binary operator succeeds exactly when the operand kinds fit its kind table. `+` fails with its own message, other operators with "Operands must be numbers", and the error names the operator. `==` and `!=` are equality and its negation; the other values are stated by ArithmeticResults and ComparisonResults |
| Interpreter.Numeric | interpreter.go:51-83 | `-`, `/` and `*` give numbers, and the comparisons give booleans |
| Interpreter.Interpret | interpreter.go:11-19 | Interpret fails exactly when evaluation does, with the same error. A result prints as `<nil>` for nil, `true` or `false` for a boolean, a string's characters, or a number's `%v` text |
| InterpreterProperties.TruthyMeans | interpreter.go:112-120 | Interpreter.IsTruthy: only nil and false are falsy |
| InterpreterProperties.IsEqualIsEquality | interpreter.go:122-130 | Interpreter.IsEqual is structural equality, so it is symmetric, and values of different kinds are never equal |
| InterpreterProperties.EvaluateMatchesInfer | interpreter.go:21-96 | Evaluation succeeds exactly when the static kind check does, with a value of the inferred kind, whatever the float operations |
| InterpreterProperties.ErrorsIgnoreArithmetic | interpreter.go:21-110 | Whether evaluation fails, and with which error, does not depend on the float results |
| InterpreterProperties.NoShortCircuit | interpreter.go:88-91 | `or` and `and` evaluate the right operand even when the left decides: its error is the result, otherwise the result is the truthiness combination |
| InterpreterProperties.LogicalOperator | interpreter.go:88-91 | `or` and `and` combine the truthiness of any two values, never failing |
| InterpreterProperties.EvaluateNodes | interpreter.go:21-45 | Interpreter.Evaluate on the other nodes: a literal yields its stored value, a group its inner result, and a unary node its operand's error or the operator applied to the operand's value |
| InterpreterProperties.EvaluationOrder | interpreter.go:47-50 | For every operator, the left operand is evaluated first and its error wins; then the right operand's error; only two values reach the operator |
| InterpreterProperties.ArithmeticResults | interpreter.go:33-71 | `+` adds two numbers with the float addition and concatenates two strings; `-`, `*` and `/` apply the float subtraction, multiplication and division; unary `-` the float negation |
| InterpreterProperties.ComparisonResults | interpreter.go:72-83 | `<`, `<=`, `>` and `>=` on two numbers are the order of the reals, with the left operand first |
| InterpreterProperties.CanonicalKind | interpreter.go:93-95 | A parsed tree's static kind is never nil, so the evaluator's nil fall-through is unreachable |
| InterpreterProperties.ParsedNeverNull | interpreter.go:93-95 | A parsed tree never evaluates to nil |
| Examples.ScanParseEvaluate | scanner.go:118-128 | Every scan is a valid parser input; every tree parsed from it is canonical and never evaluates to nil |
| Examples.DigitStep | scanner.go:232-244 | A lone digit is a one-character NUMBER with its digit value |
| Examples.ScanTrailingDot | scanner.go:236-243 | `3.` scans as NUMBER 3, then DOT |
| Examples.ScanArithmetic | scanner.go:118-128 | `1 + 2*3` scans as NUMBER PLUS NUMBER STAR NUMBER EOF, all on line 0 |
| Examples.ParseArithmetic | parser.go:77-100 | Those tokens parse with `*` binding tighter than `+` |
| Examples.RunArithmetic | interpreter.go:47-64 | Scanning, parsing and evaluating `1 + 2*3` gives `1 + (2 * 3)` in the supplied arithmetic |
| Examples.ParseEmpty | parser.go:132 | A lone EOF fails with "Expect expression" on the EOF token |
| Examples.ParseDangling | parser.go:77-87 | `1 + )` fails with "Expect expression" on the `)`, not on the `+` |
| Examples.ParseUnclosed | parser.go:127-140 | `( 1` fails with "Expect ')' after expression." on the EOF token |
| Examples.ParseNil | parser.go:124-125 | `nil` parses to the string literal "null" |
| Examples.BangNil | parser.go:124-125 | `!nil` parses to a negation of "null" and evaluates to `false` |
| Examples.ParseTrailing | parser.go:36-44 | `1 2` parses as `1`; the trailing token is ignored |
| Examples.InterpretNil | interpreter.go:11-19 | The parsed `nil` prints as `null` |
| Examples.NegateString | interpreter.go:33-38 | Negating a string fails at the `-` token |
| Examples.AddMixed | interpreter.go:60-71 | Adding a number and a string fails at the `+` token |
| Examples.PrintSum | parser.go:227-263 | `1 + 2*3` prints as `(+ 1 (* 2 3))` |

## Left out

- `main.go`: reading files or lines and printing results is I/O, and not part of this model.
- Float64 arithmetic is not modelled. The evaluator takes an `Arith` parameter for negation, `+`, `-`, `*` and `/`. Numbers are reals, so IEEE rounding, infinities, NaN and division by zero are open. Comparisons use the order on reals.
- Scanner.DecimalValue: a NUMBER literal is the exact decimal value of its lexeme, not the float64 that `strconv.ParseFloat` rounds it to.
- Interpreter.IsEqual: compares numbers as reals, so `reflect.DeepEqual`'s NaN behaviour (a NaN unequal to itself) is not modelled.
- AstPrinter.PrintExpr: the `%v` formatting of numbers is a `showNum` parameter; strings and booleans are written out as PrinterProperties.PrintLiteral states.
- Interpreter.Interpret: the `fmt.Sprint` text of a number is the same `showNum` parameter.
- Interpreter.RuntimeError: an error keeps the operator token and the message. The Go text formatting of the token (`: %v`) is not built.
- Parser.ErrorText: the kind's name comes from code generated by `stringer`, which is not part of this model; it is a `kindName` parameter.
- `Token.String` (scanner.go:97-99) formats tokens for display only and is not modelled.
- Scanner.ScanTokens: the Go errors' `"Line: %d, %s"` wrapping is kept as a `LexError(line, message)` record, not as text.
- Scanner: the source indexes bytes and the model indexes characters. Sources are taken to be ASCII, so non-ASCII bytes are not distinguished.
- Parser.Parse: requires an EOF token somewhere after the start (`Terminated`), as every scan provides. Token lists without one are not modelled. On some of them the Go parser reads past the end of its slice and panics with an index error, which is not a `ParseError`. On others it stops before the end and returns normally: `[NUMBER 1, NUMBER 2]` parses as `1`.
- ParserProperties.Unparse: every token written back out has line 0, and a number's lexeme is empty. Strings are written with their quotes, and `true`, `false` and `nil` with their keywords. The parser reads neither the line nor a literal token's lexeme.
- ParserProperties.ParsedIsCanonical: requires NUMBER and STRING tokens to carry literals of their own kind, as every scan does. A hand-built NUMBER token with no literal would parse to a nil literal, which is not canonical.

=== FILE: ast.dfy ===
/** The expression tree: a closed set of four node kinds, each owning its children. */
module Ast {
  import opened Values
  import opened Tokens

  datatype Expr =
    | Literal(value: Value)
    | Unary(op: Token, right: Expr)
    | Binary(op: Token, left: Expr, right: Expr)
    | Grouping(inner: Expr)
}

/**
 * The diagnostic printer: a fully parenthesised prefix rendering of a tree.
 * Go's `%v` formatting of a float64 is not modelled; the caller supplies it
 * as `showNum`.
 */
module AstPrinter {
  import opened Values
  import opened Tokens
  import opened Ast

  /** The `%v` text of a non-nil value. */
  function Show(v: Value, showNum: real -> string): string {
    match v
    case Num(n) => showNum(n)
    case Str(s) => s
    case Bool(b) => if b then "true" else "false"
    case Null => "<nil>"
  }

  /** `(name e1 e2 ...)`: the name, then each operand after a space, in parentheses. */
  function Parenthesize(name: string, parts: seq<string>): string {
    "(" + name + JoinSpaced(parts) + ")"
  }

  function JoinSpaced(parts: seq<string>): string {
    if |parts| == 0 then "" else " " + parts[0] + JoinSpaced(parts[1..])
  }

  function PrintExpr(e: Expr, showNum: real -> string): string {
    match e
    case Literal(v) => if v == Null then "nil" else Show(v, showNum)
    case Unary(op, r) => Parenthesize(op.lexeme, [PrintExpr(r, showNum)])
    case Binary(op, l, r) => Parenthesize(op.lexeme, [PrintExpr(l, showNum), PrintExpr(r, showNum)])
    case Grouping(inner) => Parenthesize("group", [PrintExpr(inner, showNum)])
  }
}

=== FILE: examples.dfy ===
/**
 * The three stages together, and worked examples of each.
 */
module Examples {
  import opened Wrappers
  import opened Values
  import opened Tokens
  import opened Scanner
  import ScannerProperties
  import opened Ast
  import opened Parser
  import ParserProperties
  import opened Interpreter
  import InterpreterProperties
  import AstPrinter
  import PrinterProperties

  /**
   * Any scanned token list is a valid parser input, and every tree parsed
   * from it is canonical and, if it evaluates at all, evaluates to a
   * non-nil value.
   */
  lemma ScanParseEvaluate(src: string, arith: Arith)
    ensures Terminated(ScanTokens(src).tokens, 0)
    ensures var r := Parse(ScanTokens(src).tokens);
            r.Success? ==> ParserProperties.Canonical(r.value)
                           && (Evaluate(r.value, arith).Success? ==> Evaluate(r.value, arith).value != Null)
  {
    var toks := ScanTokens(src).tokens;
    assert LastEof(toks) == |toks| - 1;
    ScannerProperties.ScannedLiteralsTyped(src);
    ParserProperties.ParsedIsCanonical(toks);
    if Parse(toks).Success? {
      InterpreterProperties.ParsedNeverNull(Parse(toks).value, arith);
    }
  }

  // ---------------------------------------------------------------------
  // Scanning

  lemma ScanAtEnd(src: string, line: nat)
    ensures ScanFrom(src, |src|, line) == Scan([EofToken(line)], [])
  {
  }

  /** A one-digit number not followed by a digit or by `.` and a digit. */
  lemma DigitStep(src: string, start: nat, line: nat)
    requires start < |src| && IsDigit(src[start])
    requires start + 1 == |src| || !IsDigit(src[start + 1])
    requires start + 2 < |src| && src[start + 1] == '.' ==> !IsDigit(src[start + 2])
    ensures ScanToken(src, start, line)
            == Step(start + 1, line, Some(Token(Number, [src[start]], Num((src[start] as int - '0' as int) as real), line)), None)
  {
    assert ScanToken(src, start, line) == ScanNumber(src, start, line);
    RunEndAt(src, start + 1, IsDigit, start + 1);
    assert src[start..start + 1] == [src[start]];
    assert DigitsValue([src[start]]) == src[start] as int - '0' as int by {
      assert [src[start]][..0] == [];
    }
  }

  /** A trailing dot is not part of a number: `3.` is a NUMBER then a DOT. */
  lemma {:induction false} ScanTrailingDot()
    ensures ScanTokens("3.") == Scan([Token(Number, "3", Num(3.0), 0), Token(Dot, ".", Null, 0), EofToken(0)], [])
  {
    hide ScanToken, ScanFrom, Newlines, EndsWithSingleEof;
    var src := "3.";
    DigitStep(src, 0, 0);
    ScannerProperties.SingleCharacter(src, 1, 0);
    ScanAtEnd(src, 0);
    ScanStep(src, 1, 0, ScanToken(src, 1, 0));
    ScanStep(src, 0, 0, ScanToken(src, 0, 0));
  }

  const One: Token := Token(Number, "1", Num(1.0), 0)
  const Two: Token := Token(Number, "2", Num(2.0), 0)
  const Three: Token := Token(Number, "3", Num(3.0), 0)
  const PlusToken: Token := Token(Plus, "+", Null, 0)
  const StarToken: Token := Token(Star, "*", Null, 0)

  const ArithmeticTokens: seq<Token> := [One, PlusToken, Two, StarToken, Three, EofToken(0)]

  /** Operators and one-digit numbers, all on line 0; blanks produce nothing. */
  lemma {:induction false} ScanArithmetic()
    ensures ScanTokens("1 + 2*3") == Scan(ArithmeticTokens, [])
  {
    hide ScanToken, ScanFrom, Newlines, EndsWithSingleEof;
    var src := "1 + 2*3";
    DigitStep(src, 0, 0);
    ScannerProperties.Whitespace(src, 1, 0);
    ScanArithmeticMiddle();
    ScanStep(src, 1, 0, ScanToken(src, 1, 0));
    ScanStep(src, 0, 0, ScanToken(src, 0, 0));
  }

  lemma {:induction false} ScanArithmeticMiddle()
    ensures ScanFrom("1 + 2*3", 2, 0)
            == Scan([PlusToken, Two, StarToken, Three, EofToken(0)], [])
  {
    hide ScanToken, ScanFrom, Newlines, EndsWithSingleEof;
    var src := "1 + 2*3";
    ScannerProperties.SingleCharacter(src, 2, 0);
    ScannerProperties.Whitespace(src, 3, 0);
    ScanArithmeticTail();
    ScanStep(src, 3, 0, ScanToken(src, 3, 0));
    ScanStep(src, 2, 0, ScanToken(src, 2, 0));
  }

  lemma {:induction false} ScanArithmeticTail()
    ensures ScanFrom("1 + 2*3", 4, 0)
            == Scan([Two, StarToken, Three, EofToken(0)], [])
  {
    hide ScanToken, ScanFrom, Newlines, EndsWithSingleEof;
    var src := "1 + 2*3";
    DigitStep(src, 4, 0);
    ScanArithmeticStar();
    ScanStep(src, 4, 0, ScanToken(src, 4, 0));
  }

  lemma {:induction false} ScanArithmeticStar()
    ensures ScanFrom("1 + 2*3", 5, 0) == Scan([StarToken, Three, EofToken(0)], [])
  {
    hide ScanToken, ScanFrom, Newlines, EndsWithSingleEof;
    var src := "1 + 2*3";
    ScannerProperties.SingleCharacter(src, 5, 0);
    ScanArithmeticLast();
    ScanStep(src, 5, 0, ScanToken(src, 5, 0));
  }

  lemma {:induction false} ScanArithmeticLast()
    ensures ScanFrom("1 + 2*3", 6, 0) == Scan([Three, EofToken(0)], [])
  {
    hide ScanToken, ScanFrom, Newlines, EndsWithSingleEof;
    var src := "1 + 2*3";
    DigitStep(src, 6, 0);
    ScanAtEnd(src, 0);
    ScanStep(src, 6, 0, ScanToken(src, 6, 0));
  }

  // ---------------------------------------------------------------------
  // Parsing and evaluation

  const Product: Expr := Binary(StarToken, Literal(Num(2.0)), Literal(Num(3.0)))
  const Sum: Expr := Binary(PlusToken, Literal(Num(1.0)), Product)

  /** `*` binds tighter than `+`. */
  lemma ParseArithmetic()
    ensures Parse(ArithmeticTokens) == Success(Sum)
  {
    SumCanonical();
    SumAt();
    hide Parse, Expression, BinaryLevel, FoldLevel, LevelOperand, UnaryLevel, Primary;
    hide ParserProperties.Canonical, ParserProperties.At, ParserProperties.Binds;
    ParserProperties.ParseSpelled(ArithmeticTokens, Sum);
  }

  /** The three stages on `1 + 2*3`: the tree multiplies first, and so does the evaluation. */
  lemma {:induction false} RunArithmetic(arith: Arith)
    ensures Parse(ScanTokens("1 + 2*3").tokens) == Success(Sum)
    ensures Evaluate(Sum, arith) == Success(Num(arith.add(1.0, arith.mul(2.0, 3.0))))
  {
    ScanArithmetic();
    ParseArithmetic();
    EvaluateSum(arith);
  }

  lemma SumAt()
    ensures ParserProperties.At(ArithmeticTokens, 0, Sum)
    ensures !ParserProperties.Binds(ArithmeticTokens[ParserProperties.End(0, Sum)].kind, 0)
  {
    SumSpelled();
    ArithmeticEnds();
    hide LastEof, ParserProperties.Width, ParserProperties.Spelled, ParserProperties.Binds;
  }

  lemma ArithmeticEnds()
    ensures ParserProperties.End(0, Sum) == 5 && LastEof(ArithmeticTokens) == 5
    ensures ArithmeticTokens[5].kind == Eof && !ParserProperties.Binds(Eof, 0)
  {
    assert ArithmeticTokens[5].kind == Eof;
  }

  lemma SumCanonical()
    ensures ParserProperties.Canonical(Sum)
  {
    assert ParserProperties.LevelOf(Plus) == Some(Term) && ParserProperties.LevelOf(Star) == Some(Factor);
  }

  lemma SumSpelled()
    ensures ParserProperties.Spelled(ArithmeticTokens, 0, Sum)
  {
    var toks := ArithmeticTokens;
    assert ParserProperties.Spelled(toks, 0, Literal(Num(1.0)));
    assert ParserProperties.Spelled(toks, 2, Literal(Num(2.0)));
    assert ParserProperties.Spelled(toks, 4, Literal(Num(3.0)));
    ParserProperties.SpelledBinary(toks, 2, StarToken, Literal(Num(2.0)), Literal(Num(3.0)));
    ParserProperties.SpelledBinary(toks, 0, PlusToken, Literal(Num(1.0)), Product);
  }

  /** With no tokens but EOF there is no expression, and the error names the EOF token. */
  lemma ParseEmpty()
    ensures Parse([EofToken(3)]) == Failure(ParseError(EofToken(3), ExpectExpression))
  {
  }

  const NilTokens: seq<Token> := [Token(Nil, "nil", Null, 0), EofToken(0)]
  const UnclosedTokens: seq<Token> := [Token(LeftParen, "(", Null, 0), One, EofToken(0)]

  /** An unclosed group is reported at the token found where `)` was due. */
  lemma ParseUnclosed()
    ensures Parse(UnclosedTokens) == Failure(ParseError(EofToken(0), ExpectRightParen))
  {
    hide BinaryLevel, FoldLevel, LevelOperand;
    var toks := UnclosedTokens;
    UnclosedAt();
    ParserProperties.ExpressionRoundTrip(toks, 1, Literal(Num(1.0)));
    assert UnaryLevel(toks, 0) == Failure(ParseError(EofToken(0), ExpectRightParen));
    ParserProperties.OperandFailure(toks, 0, Equality);
    assert Expression(toks, 0) == BinaryLevel(toks, 0, Equality);
  }

  lemma UnclosedAt()
    ensures ParserProperties.Canonical(Literal(Num(1.0)))
    ensures ParserProperties.At(UnclosedTokens, 1, Literal(Num(1.0)))
    ensures !ParserProperties.Binds(UnclosedTokens[2].kind, 0)
  {
    assert LastEof(UnclosedTokens) == 2 by {
      assert UnclosedTokens[2].kind == Eof;
    }
    assert ParserProperties.LevelOf(Eof) == None;
  }

  const CloseToken: Token := Token(RightParen, ")", Null, 0)
  const DanglingTokens: seq<Token> := [One, PlusToken, CloseToken, EofToken(0)]

  /**
   * `1 + )` fails with "Expect expression" on the `)`: the error of the
   * operand after `+` is the error of the term loop and of every level
   * above it.
   */
  lemma ParseDangling()
    ensures Parse(DanglingTokens) == Failure(ParseError(CloseToken, ExpectExpression))
  {
    var toks := DanglingTokens;
    var err := ParseError(CloseToken, ExpectExpression);
    DanglingTerm();
    assert LevelOperand(toks, 0, Comparison) == Failure(err);
    ParserProperties.LevelFailure(toks, 0, Comparison);
    assert LevelOperand(toks, 0, Equality) == Failure(err);
    ParserProperties.LevelFailure(toks, 0, Equality);
  }

  /** The term level of `1 + )` fails on the `)`. */
  lemma DanglingTerm()
    ensures Terminated(DanglingTokens, 0)
    ensures BinaryLevel(DanglingTokens, 0, Term) == Failure(ParseError(CloseToken, ExpectExpression))
  {
    var toks := DanglingTokens;
    var err := ParseError(CloseToken, ExpectExpression);
    var one := Literal(Num(1.0));
    DanglingOne();
    assert UnaryLevel(toks, 2) == Failure(err) by {
      hide BinaryLevel, FoldLevel, LevelOperand, Expression;
    }
    ParserProperties.OperandFailure(toks, 2, Term);
    ParserProperties.FoldFailure(toks, Term, one, 1);
  }

  /** The first operand of `1 + )`'s term level is the `1`. */
  lemma DanglingOne()
    ensures Terminated(DanglingTokens, 0)
    ensures LevelOperand(DanglingTokens, 0, Term) == Success(Parsed(Literal(Num(1.0)), 1))
  {
    var toks := DanglingTokens;
    var one := Literal(Num(1.0));
    assert LastEof(toks) == 3 by {
      assert toks[3].kind == Eof;
    }
    assert UnaryLevel(toks, 0) == Success(Parsed(one, 1)) by {
      hide BinaryLevel, FoldLevel, LevelOperand, Expression;
    }
    assert FoldLevel(toks, Factor, one, 1) == Success(Parsed(one, 1)) by {
      hide BinaryLevel, UnaryLevel, LevelOperand, Expression;
    }
    assert LevelOperand(toks, 0, Factor) == Success(Parsed(one, 1));
    assert BinaryLevel(toks, 0, Factor) == Success(Parsed(one, 1));
  }

  /** `nil` becomes the string "null". */
  lemma ParseNil()
    ensures Parse(NilTokens) == Success(Literal(Str("null")))
  {
    NilAt();
    hide Parse, Expression, BinaryLevel, FoldLevel, LevelOperand, UnaryLevel, Primary;
    hide ParserProperties.Canonical, ParserProperties.At, ParserProperties.Binds;
    ParserProperties.ParseSpelled(NilTokens, Literal(Str("null")));
  }

  lemma NilAt()
    ensures ParserProperties.Canonical(Literal(Str("null")))
    ensures ParserProperties.At(NilTokens, 0, Literal(Str("null")))
    ensures !ParserProperties.Binds(NilTokens[1].kind, 0)
  {
    assert LastEof(NilTokens) == 1 by {
      assert NilTokens[1].kind == Eof;
    }
    assert ParserProperties.LevelOf(Eof) == None;
  }

  /** ... and that string, not `nil`, is what gets printed for it. */
  lemma InterpretNil(arith: Arith, showNum: real -> string)
    ensures Interpret(Literal(Str("null")), arith, showNum) == Success("null")
  {
  }

  const BangToken: Token := Token(Bang, "!", Null, 0)
  const BangNilTokens: seq<Token> := [BangToken, Token(Nil, "nil", Null, 0), EofToken(0)]

  /**
   * `!nil` is `false`: `nil` is read as the string "null", and every
   * string is truthy.
   */
  lemma BangNil(arith: Arith)
    ensures Parse(BangNilTokens) == Success(Unary(BangToken, Literal(Str("null"))))
    ensures Evaluate(Unary(BangToken, Literal(Str("null"))), arith) == Success(Bool(false))
  {
    BangNilAt();
    hide Parse, Expression, BinaryLevel, FoldLevel, LevelOperand, UnaryLevel, Primary;
    hide ParserProperties.Canonical, ParserProperties.At, ParserProperties.Binds;
    ParserProperties.ParseSpelled(BangNilTokens, Unary(BangToken, Literal(Str("null"))));
  }

  lemma BangNilAt()
    ensures ParserProperties.Canonical(Unary(BangToken, Literal(Str("null"))))
    ensures ParserProperties.At(BangNilTokens, 0, Unary(BangToken, Literal(Str("null"))))
    ensures !ParserProperties.Binds(BangNilTokens[2].kind, 0)
  {
    assert LastEof(BangNilTokens) == 2 by {
      assert BangNilTokens[2].kind == Eof;
    }
    assert ParserProperties.Spelled(BangNilTokens, 1, Literal(Str("null")));
    assert ParserProperties.LevelOf(Eof) == None;
  }

  const TrailingTokens: seq<Token> := [One, Two, EofToken(0)]

  /** Tokens after a complete expression are not looked at: `1 2` parses as `1`. */
  lemma ParseTrailing()
    ensures Parse(TrailingTokens) == Success(Literal(Num(1.0)))
  {
    TrailingAt();
    hide Parse, Expression, BinaryLevel, FoldLevel, LevelOperand, UnaryLevel, Primary;
    hide ParserProperties.Canonical, ParserProperties.At, ParserProperties.Binds;
    ParserProperties.ParseSpelled(TrailingTokens, Literal(Num(1.0)));
  }

  lemma TrailingAt()
    ensures ParserProperties.Canonical(Literal(Num(1.0)))
    ensures ParserProperties.At(TrailingTokens, 0, Literal(Num(1.0)))
    ensures !ParserProperties.Binds(TrailingTokens[1].kind, 0)
  {
    assert LastEof(TrailingTokens) == 2 by {
      assert TrailingTokens[2].kind == Eof;
    }
  }

  /** Operands are evaluated left to right with the supplied arithmetic. */
  lemma EvaluateSum(arith: Arith)
    ensures Evaluate(Sum, arith) == Success(Num(arith.add(1.0, arith.mul(2.0, 3.0))))
  {
    assert Evaluate(Product, arith) == ApplyBinary(StarToken, Num(2.0), Num(3.0), arith);
    assert Evaluate(Sum, arith) == ApplyBinary(PlusToken, Num(1.0), Num(arith.mul(2.0, 3.0)), arith);
  }

  /** Negating a string is a runtime error at the `-` token. */
  lemma NegateString(arith: Arith)
    ensures Evaluate(Unary(Token(Minus, "-", Null, 0), Literal(Str("a"))), arith)
            == Failure(RuntimeError(Token(Minus, "-", Null, 0), OperandMustBeNumber))
  {
  }

  /** Adding a number to a string is a runtime error at the `+` token. */
  lemma AddMixed(arith: Arith)
    ensures Evaluate(Binary(PlusToken, Literal(Num(1.0)), Literal(Str("a"))), arith)
            == Failure(RuntimeError(PlusToken, OperandsMustBeTwoNumbersOrTwoStrings))
  {
  }

  /** The printer's prefix form of `1 + 2 * 3`. */
  lemma PrintSum(showNum: real -> string)
    ensures AstPrinter.PrintExpr(Sum, showNum)
            == "(+ " + showNum(1.0) + " (* " + showNum(2.0) + " " + showNum(3.0) + "))"
  {
    hide AstPrinter.PrintExpr, AstPrinter.Parenthesize, AstPrinter.JoinSpaced;
    var one, two, three := showNum(1.0), showNum(2.0), showNum(3.0);
    PrinterProperties.PrintLiteral(Num(1.0), showNum);
    PrintProduct(showNum);
    PrinterProperties.PrintBinary(PlusToken, Literal(Num(1.0)), Product, showNum);
    assert "(+ " + one + " " + ("(* " + two + " " + three + ")") + ")"
           == "(+ " + one + " (* " + two + " " + three + "))";
  }

  lemma PrintProduct(showNum: real -> string)
    ensures AstPrinter.PrintExpr(Product, showNum) == "(* " + showNum(2.0) + " " + showNum(3.0) + ")"
  {
    hide AstPrinter.PrintExpr, AstPrinter.Parenthesize, AstPrinter.JoinSpaced;
    PrinterProperties.PrintLiteral(Num(2.0), showNum);
    PrinterProperties.PrintLiteral(Num(3.0), showNum);
    PrinterProperties.PrintBinary(StarToken, Literal(Num(2.0)), Literal(Num(3.0)), showNum);
  }
}

=== FILE: interpreter.dfy ===
/**
 * The tree-walking evaluator. Each node evaluates its children left to
 * right and then applies its operator; the first runtime error aborts the
 * whole evaluation (the source panics and recovers once, in `interpret`;
 * here the failure is returned and passed up).
 *
 * Float64 arithmetic is a parameter (`Arith`): the model fixes which
 * operation is applied to which operands and when, not IEEE-754 rounding.
 * Comparisons use the order of the reals.
 */
module Interpreter {
  import opened Wrappers
  import opened Values
  import opened Tokens
  import opened Ast
  import AstPrinter

  /** The float64 operations the evaluator applies to numbers. */
  datatype Arith = Arith(
    neg: real -> real,
    add: (real, real) -> real,
    sub: (real, real) -> real,
    mul: (real, real) -> real,
    div: (real, real) -> real)

  const OperandMustBeNumber: string := "Operand must be number"
  const OperandsMustBeNumbers: string := "Operands must be numbers"
  const OperandsMustBeTwoNumbersOrTwoStrings: string := "Operands must be two numbers or two strings"

  /** The operator token that failed and the message's fixed part (the source appends the token). */
  datatype RuntimeError = RuntimeError(op: Token, message: string)

  /** nil and false are falsey; every other value, 0 and "" included, is truthy. */
  predicate IsTruthy(v: Value) {
    match v
    case Null => false
    case Bool(b) => b
    case _ => true
  }

  /** nil equals only nil; anything else is compared by deep equality. */
  predicate IsEqual(a: Value, b: Value) {
    if a == Null && b == Null then true
    else if a == Null then false
    else a == b
  }

  /**
   * The kind of value a unary operator yields from an operand of kind `a`,
   * or None when it raises a runtime error. An operator the evaluator has
   * no case for yields nil.
   */
  function UnaryKind(op: TokenType, a: Kind): Option<Kind> {
    match op
    case Minus => if a == NumKind then Some(NumKind) else None
    case Bang => Some(BoolKind)
    case _ => Some(NullKind)
  }

  /** The same table for binary operators. */
  function BinaryKind(op: TokenType, a: Kind, b: Kind): Option<Kind> {
    match op
    case Minus | Slash | Star => if a == NumKind && b == NumKind then Some(NumKind) else None
    case Plus => if a == b && (a == NumKind || a == StrKind) then Some(a) else None
    case Greater | GreaterEqual | Less | LessEqual =>
      if a == NumKind && b == NumKind then Some(BoolKind) else None
    case EqualEqual | BangEqual | Or | And => Some(BoolKind)
    case _ => Some(NullKind)
  }

  function ApplyUnary(op: Token, v: Value, arith: Arith): (r: Result<Value, RuntimeError>)
    ensures r.Success? <==> UnaryKind(op.kind, KindOf(v)).Some?
    ensures r.Success? ==> KindOf(r.value) == UnaryKind(op.kind, KindOf(v)).value
    ensures r.Failure? ==> r.error == RuntimeError(op, OperandMustBeNumber)
    ensures op.kind == Bang ==> r == Success(Bool(!IsTruthy(v)))
  {
    match op.kind
    case Minus =>
      if v.Num? then Success(Num(arith.neg(v.n))) else Failure(RuntimeError(op, OperandMustBeNumber))
    case Bang => Success(Bool(!IsTruthy(v)))
    case _ => Success(Null)
  }

  /** Both operands must be numbers. */
  function NumberOperands(op: Token, a: Value, b: Value): (r: Option<RuntimeError>)
    ensures r.None? <==> a.Num? && b.Num?
  {
    if a.Num? && b.Num? then None else Some(RuntimeError(op, OperandsMustBeNumbers))
  }

  function ApplyBinary(op: Token, a: Value, b: Value, arith: Arith): (r: Result<Value, RuntimeError>)
    ensures r.Success? <==> BinaryKind(op.kind, KindOf(a), KindOf(b)).Some?
    ensures r.Success? ==> KindOf(r.value) == BinaryKind(op.kind, KindOf(a), KindOf(b)).value
    ensures r.Failure? ==> r.error.op == op
    ensures r.Failure? ==> r.error.message == if op.kind == Plus then OperandsMustBeTwoNumbersOrTwoStrings else OperandsMustBeNumbers
    ensures op.kind in {EqualEqual, BangEqual} ==> r == Success(Bool(IsEqual(a, b) == (op.kind == EqualEqual)))
  {
    match op.kind
    case Minus | Slash | Star | Greater | GreaterEqual | Less | LessEqual =>
      if NumberOperands(op, a, b).Some? then Failure(NumberOperands(op, a, b).value)
      else Success(Numeric(op.kind, a.n, b.n, arith))
    case Plus =>
      if a.Num? && b.Num? then Success(Num(arith.add(a.n, b.n)))
      else if a.Str? && b.Str? then Success(Str(a.s + b.s))
      else Failure(RuntimeError(op, OperandsMustBeTwoNumbersOrTwoStrings))
    case EqualEqual => Success(Bool(IsEqual(a, b)))
    case BangEqual => Success(Bool(!IsEqual(a, b)))
    case Or => Success(Bool(IsTruthy(a) || IsTruthy(b)))
    case And => Success(Bool(IsTruthy(a) && IsTruthy(b)))
    case _ => Success(Null)
  }

  /** An arithmetic or comparison operator applied to two numbers. */
  function Numeric(kind: TokenType, x: real, y: real, arith: Arith): (r: Value)
    requires kind in {Minus, Slash, Star, Greater, GreaterEqual, Less, LessEqual}
    ensures r.Num? <==> kind in {Minus, Slash, Star}
    ensures r.Bool? <==> !r.Num?
  {
    match kind
    case Minus => Num(arith.sub(x, y))
    case Slash => Num(arith.div(x, y))
    case Star => Num(arith.mul(x, y))
    case Greater => Bool(x > y)
    case GreaterEqual => Bool(x >= y)
    case Less => Bool(x < y)
    case LessEqual => Bool(x <= y)
  }

  /** Children left to right, then the node's operator; the first error wins. */
  function Evaluate(e: Expr, arith: Arith): (r: Result<Value, RuntimeError>)
  {
    match e
    case Literal(v) => Success(v)
    case Grouping(inner) => Evaluate(inner, arith)
    case Unary(op, right) =>
      var v :- Evaluate(right, arith);
      ApplyUnary(op, v, arith)
    case Binary(op, left, right) =>
      var a :- Evaluate(left, arith);
      var b :- Evaluate(right, arith);
      ApplyBinary(op, a, b, arith)
  }

  /**
   * The printed result of evaluating a tree: its value in `fmt.Sprint` form
   * (nil as `<nil>`), or the runtime error, in which case the source's
   * result string is empty.
   */
  function Interpret(e: Expr, arith: Arith, showNum: real -> string): (r: Result<string, RuntimeError>)
    ensures r.Failure? <==> Evaluate(e, arith).Failure?
    ensures r.Failure? ==> r.error == Evaluate(e, arith).error
    ensures Evaluate(e, arith) == Success(Null) ==> r == Success("<nil>")
    ensures Evaluate(e, arith) == Success(Bool(true)) ==> r == Success("true")
    ensures Evaluate(e, arith) == Success(Bool(false)) ==> r == Success("false")
    ensures Evaluate(e, arith).Success? && Evaluate(e, arith).value.Str? ==> r == Success(Evaluate(e, arith).value.s)
    ensures Evaluate(e, arith).Success? && Evaluate(e, arith).value.Num? ==> r == Success(showNum(Evaluate(e, arith).value.n))
  {
    match Evaluate(e, arith)
    case Success(v) => Success(AstPrinter.Show(v, showNum))
    case Failure(err) => Failure(err)
  }
}

=== FILE: interpreter_props.dfy ===
/**
 * Properties of the evaluator. Whether a tree evaluates or raises a runtime
 * error, and the kind of value it yields, are decided by a static kind
 * check (`Infer`) before anything is evaluated; neither depends on the
 * float64 operations. Both operands of `or` and `and` are always
 * evaluated, and a parsed tree never evaluates to nil.
 */
module InterpreterProperties {
  import opened Wrappers
  import opened Values
  import opened Tokens
  import opened Ast
  import opened Interpreter
  import ParserProperties

  /** The falsey values are exactly nil and false. */
  lemma TruthyMeans(v: Value)
    ensures IsTruthy(v) <==> v != Null && v != Bool(false)
  {
  }

  /** The source's equality agrees with structural equality of values, so it is an equivalence. */
  lemma IsEqualIsEquality(a: Value, b: Value)
    ensures IsEqual(a, b) <==> a == b
    ensures IsEqual(a, b) == IsEqual(b, a)
    ensures KindOf(a) != KindOf(b) ==> !IsEqual(a, b)
  {
  }

  /** The kind a tree evaluates to, computed from the kinds of its literals alone; None when it would raise an error. */
  function Infer(e: Expr): Option<Kind> {
    match e
    case Literal(v) => Some(KindOf(v))
    case Grouping(inner) => Infer(inner)
    case Unary(op, right) =>
      if Infer(right).None? then None else UnaryKind(op.kind, Infer(right).value)
    case Binary(op, left, right) =>
      if Infer(left).None? || Infer(right).None? then None
      else BinaryKind(op.kind, Infer(left).value, Infer(right).value)
  }

  /**
   * Evaluation succeeds exactly when the static kind check does, and then
   * yields a value of the inferred kind, whatever the float64 operations.
   */
  lemma {:induction false} EvaluateMatchesInfer(e: Expr, arith: Arith)
    ensures Evaluate(e, arith).Success? <==> Infer(e).Some?
    ensures Evaluate(e, arith).Success? ==> KindOf(Evaluate(e, arith).value) == Infer(e).value
  {
    match e
    case Literal(_) =>
    case Grouping(inner) =>
      EvaluateMatchesInfer(inner, arith);
    case Unary(_, right) =>
      EvaluateMatchesInfer(right, arith);
    case Binary(_, left, right) =>
      EvaluateMatchesInfer(left, arith);
      EvaluateMatchesInfer(right, arith);
  }

  /** Which runtime error a tree raises, if any, does not depend on the float64 operations. */
  lemma {:induction false} ErrorsIgnoreArithmetic(e: Expr, a1: Arith, a2: Arith)
    ensures Evaluate(e, a1).Failure? <==> Evaluate(e, a2).Failure?
    ensures Evaluate(e, a1).Failure? ==> Evaluate(e, a1).error == Evaluate(e, a2).error
  {
    match e
    case Literal(_) =>
    case Grouping(inner) =>
      ErrorsIgnoreArithmetic(inner, a1, a2);
    case Unary(_, right) =>
      ErrorsIgnoreArithmetic(right, a1, a2);
      EvaluateMatchesInfer(right, a1);
      EvaluateMatchesInfer(right, a2);
    case Binary(_, left, right) =>
      ErrorsIgnoreArithmetic(left, a1, a2);
      ErrorsIgnoreArithmetic(right, a1, a2);
      EvaluateMatchesInfer(left, a1);
      EvaluateMatchesInfer(left, a2);
      EvaluateMatchesInfer(right, a1);
      EvaluateMatchesInfer(right, a2);
  }

  /**
   * `or` and `and` do not short-circuit: the right operand is evaluated
   * even when the left one already decides the result, and its error is
   * the result.
   */
  lemma {:induction false} NoShortCircuit(op: Token, left: Expr, right: Expr, arith: Arith)
    requires op.kind in {Or, And}
    requires Evaluate(left, arith).Success?
    ensures Evaluate(right, arith).Failure? ==>
              Evaluate(Binary(op, left, right), arith) == Failure(Evaluate(right, arith).error)
    ensures Evaluate(right, arith).Success? ==>
              var a, b := Evaluate(left, arith).value, Evaluate(right, arith).value;
              Evaluate(Binary(op, left, right), arith)
                == Success(Bool(if op.kind == Or then IsTruthy(a) || IsTruthy(b) else IsTruthy(a) && IsTruthy(b)))
  {
    var a := Evaluate(left, arith).value;
    if Evaluate(right, arith).Success? {
      LogicalOperator(op, a, Evaluate(right, arith).value, arith);
    }
    hide ApplyBinary;
    assert Evaluate(Binary(op, left, right), arith)
           == (var b :- Evaluate(right, arith); ApplyBinary(op, a, b, arith));
  }

  /** `or` and `and` combine the truthiness of any two values, never failing. */
  lemma LogicalOperator(op: Token, a: Value, b: Value, arith: Arith)
    requires op.kind in {Or, And}
    ensures ApplyBinary(op, a, b, arith)
            == Success(Bool(if op.kind == Or then IsTruthy(a) || IsTruthy(b) else IsTruthy(a) && IsTruthy(b)))
  {
  }

  /**
   * A literal evaluates to the value it holds and a group to its inner
   * expression's result. A unary node evaluates its operand first: its
   * error is the result, otherwise the operator is applied to its value.
   */
  lemma EvaluateNodes(e: Expr, arith: Arith)
    ensures e.Literal? ==> Evaluate(e, arith) == Success(e.value)
    ensures e.Grouping? ==> Evaluate(e, arith) == Evaluate(e.inner, arith)
    ensures e.Unary? && Evaluate(e.right, arith).Failure? ==>
              Evaluate(e, arith) == Failure(Evaluate(e.right, arith).error)
    ensures e.Unary? && Evaluate(e.right, arith).Success? ==>
              Evaluate(e, arith) == ApplyUnary(e.op, Evaluate(e.right, arith).value, arith)
  {
  }

  /**
   * A binary node evaluates its left operand first and its right operand
   * second, whatever the operator: the left error wins, then the right
   * error, and only two values reach the operator.
   */
  lemma EvaluationOrder(op: Token, left: Expr, right: Expr, arith: Arith)
    ensures Evaluate(left, arith).Failure? ==>
              Evaluate(Binary(op, left, right), arith) == Failure(Evaluate(left, arith).error)
    ensures Evaluate(left, arith).Success? && Evaluate(right, arith).Failure? ==>
              Evaluate(Binary(op, left, right), arith) == Failure(Evaluate(right, arith).error)
    ensures Evaluate(left, arith).Success? && Evaluate(right, arith).Success? ==>
              Evaluate(Binary(op, left, right), arith)
                == ApplyBinary(op, Evaluate(left, arith).value, Evaluate(right, arith).value, arith)
  {
  }

  /**
   * What each arithmetic operator computes: `+` adds numbers with the
   * float64 addition and concatenates strings, `-`, `*` and `/` apply the
   * float64 subtraction, multiplication and division, and unary `-` the
   * negation.
   */
  lemma ArithmeticResults(op: Token, a: Value, b: Value, arith: Arith)
    ensures op.kind == Plus && a.Num? && b.Num? ==> ApplyBinary(op, a, b, arith) == Success(Num(arith.add(a.n, b.n)))
    ensures op.kind == Plus && a.Str? && b.Str? ==> ApplyBinary(op, a, b, arith) == Success(Str(a.s + b.s))
    ensures op.kind == Minus && a.Num? && b.Num? ==> ApplyBinary(op, a, b, arith) == Success(Num(arith.sub(a.n, b.n)))
    ensures op.kind == Star && a.Num? && b.Num? ==> ApplyBinary(op, a, b, arith) == Success(Num(arith.mul(a.n, b.n)))
    ensures op.kind == Slash && a.Num? && b.Num? ==> ApplyBinary(op, a, b, arith) == Success(Num(arith.div(a.n, b.n)))
    ensures op.kind == Minus && a.Num? ==> ApplyUnary(op, a, arith) == Success(Num(arith.neg(a.n)))
  {
  }

  /**
   * The comparisons order numbers as the reals are ordered: `a < b` and
   * `b > a` both hold exactly when `a` is below `b`, and the `=` variants
   * also hold when they are equal. Comparing anything but two numbers is
   * the runtime error `ApplyBinary` states.
   */
  lemma ComparisonResults(op: Token, a: Value, b: Value, arith: Arith)
    ensures a.Num? && b.Num? && op.kind == Less ==> ApplyBinary(op, a, b, arith) == Success(Bool(a.n < b.n))
    ensures a.Num? && b.Num? && op.kind == LessEqual ==> ApplyBinary(op, a, b, arith) == Success(Bool(a.n < b.n || a.n == b.n))
    ensures a.Num? && b.Num? && op.kind == Greater ==> ApplyBinary(op, a, b, arith) == Success(Bool(b.n < a.n))
    ensures a.Num? && b.Num? && op.kind == GreaterEqual ==> ApplyBinary(op, a, b, arith) == Success(Bool(b.n < a.n || a.n == b.n))
  {
  }

  /** The static kind of a parsed (canonical) tree is never nil. */
  lemma {:induction false} CanonicalKind(e: Expr)
    requires ParserProperties.Canonical(e)
    ensures Infer(e) != Some(NullKind)
  {
    match e
    case Literal(_) =>
    case Grouping(inner) =>
      CanonicalKind(inner);
    case Unary(_, right) =>
      CanonicalKind(right);
    case Binary(op, left, right) =>
      CanonicalKind(left);
      CanonicalKind(right);
      assert op.kind in {EqualEqual, BangEqual, Greater, GreaterEqual, Less, LessEqual, Plus, Minus, Or, Star, Slash, And};
  }

  /**
   * A parsed tree never evaluates to nil: the evaluator's fall-through
   * cases, which return nil, are unreachable from the parser.
   */
  lemma {:induction false} ParsedNeverNull(e: Expr, arith: Arith)
    requires ParserProperties.Canonical(e)
    ensures Evaluate(e, arith).Success? ==> Evaluate(e, arith).value != Null
  {
    CanonicalKind(e);
    EvaluateMatchesInfer(e, arith);
  }
}

=== FILE: parser.dfy ===
/**
 * The recursive-descent parser. Each grammar rule is a function from the
 * token list and a cursor to the tree it built and the cursor after it, or
 * to the first syntax error (the source panics and recovers once, in
 * `Parse`; here the failure is returned and passed up by every rule).
 *
 *   expression -> equality
 *   equality   -> comparison (("==" | "!=") comparison)*
 *   comparison -> term (("<" | ">" | "<=" | ">=") term)*
 *   term       -> factor (("+" | "-" | "or") factor)*
 *   factor     -> unary (("*" | "/" | "and") unary)*
 *   unary      -> ("-" | "!") unary | primary
 *   primary    -> NUMBER | STRING | "true" | "false" | "nil" | "(" expression ")"
 *
 * Termination: every rule either consumes a token before recursing or
 * calls a rule further down the ladder, so the measure is the pair
 * (tokens left, rank of the rule).
 */
module Parser {
  import opened Wrappers
  import opened Values
  import opened Tokens
  import opened Ast

  const ExpectExpression: string := "Expect expression"
  const ExpectRightParen: string := "Expect ')' after expression."

  /** The offending token and the message. */
  datatype ParseError = ParseError(token: Token, message: string)

  /**
   * The error's text: the token's lexeme, its kind's name, its line in
   * decimal, then the message quoted as `at '...'`. Kind names come from
   * generated code outside this model and are a parameter.
   */
  function ErrorText(e: ParseError, kindName: TokenType -> string): string {
    e.token.lexeme + " " + kindName(e.token.kind) + " " + NatToString(e.token.line) + " at '" + e.message + "'"
  }

  /** The decimal digits of `n`, most significant first, without leading zeros. */
  function NatToString(n: nat): (s: string)
    ensures |s| > 0 && (forall i :: 0 <= i < |s| ==> '0' <= s[i] <= '9')
    ensures s[0] == '0' ==> n == 0
  {
    var d := ['0' + (n % 10) as char];
    if n < 10 then d else NatToString(n / 10) + d
  }

  /** A tree and the cursor just after the tokens it was built from. */
  datatype Parsed = Parsed(expr: Expr, next: nat)

  /** The four left-associative binary levels, loosest first. */
  datatype Level = Equality | Comparison | Term | Factor

  /** 0 for the loosest level up to 3 for the tightest. */
  function Index(l: Level): nat {
    match l
    case Equality => 0
    case Comparison => 1
    case Term => 2
    case Factor => 3
  }

  /** The operator kinds each level's loop matches. */
  function Operators(l: Level): set<TokenType> {
    match l
    case Equality => {EqualEqual, BangEqual}
    case Comparison => {Greater, GreaterEqual, Less, LessEqual}
    case Term => {Plus, Minus, Or}
    case Factor => {Star, Slash, And}
  }

  /** The level whose rule a level's operands are parsed with. */
  function Tighter(l: Level): (t: Level)
    requires l != Factor
    ensures Index(t) == Index(l) + 1
  {
    match l
    case Equality => Comparison
    case Comparison => Term
    case Term => Factor
  }

  /**
   * An EOF token lies at or after the cursor. The source reads
   * `tokens[current]` unguarded and stops advancing at EOF, so this is what
   * it needs of its input; every scan provides it.
   */
  predicate Terminated(toks: seq<Token>, cur: nat) {
    cur <= LastEof(toks)
  }

  /** The index of the last EOF token, or -1 when there is none. */
  function LastEof(toks: seq<Token>): (r: int)
    ensures -1 <= r < |toks|
    ensures r >= 0 ==> toks[r].kind == Eof
  {
    if |toks| == 0 then -1
    else if toks[|toks| - 1].kind == Eof then |toks| - 1
    else LastEof(toks[..|toks| - 1])
  }

  predicate IsAtEnd(toks: seq<Token>, cur: nat)
    requires cur < |toks|
  {
    toks[cur].kind == Eof
  }

  /** The source's `match`: the current token is not EOF and has one of `kinds`. */
  predicate MatchAny(toks: seq<Token>, cur: nat, kinds: set<TokenType>)
    requires cur < |toks|
  {
    !IsAtEnd(toks, cur) && toks[cur].kind in kinds
  }

  /**
   * What every rule guarantees: a success ends after at least one token and
   * before EOF has been passed; a failure blames a token at or after the
   * cursor.
   */
  ghost predicate Progress(toks: seq<Token>, cur: nat, r: Result<Parsed, ParseError>) {
    && (r.Success? ==> cur < r.value.next && Terminated(toks, r.value.next))
    && (r.Failure? ==> exists j :: cur <= j < |toks| && toks[j] == r.error.token)
  }

  function Expression(toks: seq<Token>, cur: nat): (r: Result<Parsed, ParseError>)
    requires Terminated(toks, cur)
    ensures Progress(toks, cur, r)
    decreases |toks| - cur, 10
  {
    BinaryLevel(toks, cur, Equality)
  }

  /** One binary level: its first operand, then the left fold of the rest. */
  function BinaryLevel(toks: seq<Token>, cur: nat, l: Level): (r: Result<Parsed, ParseError>)
    requires Terminated(toks, cur)
    ensures Progress(toks, cur, r)
    decreases |toks| - cur, 3 + 2 * (3 - Index(l))
  {
    var first :- LevelOperand(toks, cur, l);
    FoldLevel(toks, l, first.expr, first.next)
  }

  /** An operand of level `l`: the next tighter level, or a unary expression under `Factor`. */
  function LevelOperand(toks: seq<Token>, cur: nat, l: Level): (r: Result<Parsed, ParseError>)
    requires Terminated(toks, cur)
    ensures Progress(toks, cur, r)
    decreases |toks| - cur, 2 + 2 * (3 - Index(l))
  {
    if l == Factor then UnaryLevel(toks, cur) else BinaryLevel(toks, cur, Tighter(l))
  }

  /**
   * The loop of level `l` with `left` built so far: while the current token
   * is one of the level's operators, consume it and an operand, and make
   * them the right side of a new node whose left side is everything so far.
   */
  function FoldLevel(toks: seq<Token>, l: Level, left: Expr, cur: nat): (r: Result<Parsed, ParseError>)
    requires Terminated(toks, cur)
    ensures r.Success? ==> cur <= r.value.next && Terminated(toks, r.value.next)
    ensures r.Failure? ==> exists j :: cur <= j < |toks| && toks[j] == r.error.token
    decreases |toks| - cur, 2 + 2 * (3 - Index(l))
  {
    if MatchAny(toks, cur, Operators(l)) then
      var right :- LevelOperand(toks, cur + 1, l);
      FoldLevel(toks, l, Binary(toks[cur], left, right.expr), right.next)
    else
      Success(Parsed(left, cur))
  }

  /** `-` or `!` applies to the unary expression after it; anything else is a primary. */
  function UnaryLevel(toks: seq<Token>, cur: nat): (r: Result<Parsed, ParseError>)
    requires Terminated(toks, cur)
    ensures Progress(toks, cur, r)
    decreases |toks| - cur, 1
  {
    if MatchAny(toks, cur, {Minus, Bang}) then
      var right :- UnaryLevel(toks, cur + 1);
      Success(Parsed(Unary(toks[cur], right.expr), right.next))
    else
      Primary(toks, cur)
  }

  function Primary(toks: seq<Token>, cur: nat): (r: Result<Parsed, ParseError>)
    requires Terminated(toks, cur)
    ensures Progress(toks, cur, r)
    decreases |toks| - cur, 0
  {
    if MatchAny(toks, cur, {Number, String}) then
      Success(Parsed(Literal(toks[cur].literal), cur + 1))
    else if MatchAny(toks, cur, {True}) then
      Success(Parsed(Literal(Bool(true)), cur + 1))
    else if MatchAny(toks, cur, {False}) then
      Success(Parsed(Literal(Bool(false)), cur + 1))
    else if MatchAny(toks, cur, {Nil}) then
      Success(Parsed(Literal(Str("null")), cur + 1))
    else if MatchAny(toks, cur, {LeftParen}) then
      var inner :- Expression(toks, cur + 1);
      var next :- Consume(toks, inner.next, RightParen, ExpectRightParen);
      Success(Parsed(Grouping(inner.expr), next))
    else
      Failure(ParseError(toks[cur], ExpectExpression))
  }

  /** The current token must have `kind`: step past it, or fail on it with `message`. */
  function Consume(toks: seq<Token>, cur: nat, kind: TokenType, message: string): (r: Result<nat, ParseError>)
    requires Terminated(toks, cur)
    ensures r.Success? <==> toks[cur].kind == kind && kind != Eof
    ensures r.Success? ==> r.value == cur + 1 && Terminated(toks, r.value)
    ensures r.Failure? ==> r.error == ParseError(toks[cur], message)
  {
    if MatchAny(toks, cur, {kind}) then Success(cur + 1) else Failure(ParseError(toks[cur], message))
  }

  /**
   * Parses one expression from the start of the token list: a tree or the
   * first syntax error, never both. Tokens after the expression are not
   * looked at.
   */
  function Parse(toks: seq<Token>): (r: Result<Expr, ParseError>)
    requires Terminated(toks, 0)
    ensures r.Failure? ==> r.error.token in toks
  {
    match Expression(toks, 0)
    case Success(p) => Success(p.expr)
    case Failure(e) => Failure(e)
  }
}

=== FILE: parser_props.dfy ===
/**
 * Properties of the parser. The trees it builds are exactly the canonical
 * ones: precedence and left associativity decide the shape, so every
 * binary node's operands bind at least as tightly (left) or strictly more
 * tightly (right) than the node itself, unless parenthesised. Conversely,
 * writing a canonical tree back out as tokens and parsing them gives the
 * same tree back, whatever follows the expression.
 */
module ParserProperties {
  import opened Wrappers
  import opened Values
  import opened Tokens
  import opened Ast
  import opened Parser
  import Scanner

  /** The level whose loop matches `kind`, if any; the four operator sets are disjoint. */
  function LevelOf(kind: TokenType): (r: Option<Level>)
    ensures forall l :: kind in Operators(l) <==> r == Some(l)
  {
    if kind in Operators(Equality) then Some(Equality)
    else if kind in Operators(Comparison) then Some(Comparison)
    else if kind in Operators(Term) then Some(Term)
    else if kind in Operators(Factor) then Some(Factor)
    else None
  }

  /** `kind` is the operator of a level at least as tight as the level of index `i`. */
  predicate Binds(kind: TokenType, i: nat) {
    LevelOf(kind).Some? && Index(LevelOf(kind).value) >= i
  }

  /**
   * How tightly a tree binds: a binary node its level's index (0 to 3), a
   * unary node 4, a literal or a parenthesised group 5.
   */
  function Prec(e: Expr): nat {
    match e
    case Literal(_) => 5
    case Grouping(_) => 5
    case Unary(_, _) => 4
    case Binary(op, _, _) => if LevelOf(op.kind).Some? then Index(LevelOf(op.kind).value) else 0
  }

  /** The trees the grammar can produce, given scanned tokens. */
  ghost predicate Canonical(e: Expr) {
    match e
    case Literal(v) => v != Null
    case Grouping(inner) => Canonical(inner)
    case Unary(op, right) => op.kind in {Minus, Bang} && Prec(right) >= 4 && Canonical(right)
    case Binary(op, left, right) =>
      && LevelOf(op.kind).Some?
      && Prec(left) >= Index(LevelOf(op.kind).value)
      && Prec(right) > Index(LevelOf(op.kind).value)
      && Canonical(left) && Canonical(right)
  }

  // ---------------------------------------------------------------------
  // Parsed trees are canonical

  lemma {:induction false} ExpressionCanonical(toks: seq<Token>, cur: nat)
    requires Terminated(toks, cur) && Scanner.LiteralsTyped(toks)
    ensures var r := Expression(toks, cur); r.Success? ==> Canonical(r.value.expr)
    decreases |toks| - cur, 10
  {
    LevelCanonical(toks, cur, Equality);
  }

  lemma {:induction false} LevelCanonical(toks: seq<Token>, cur: nat, l: Level)
    requires Terminated(toks, cur) && Scanner.LiteralsTyped(toks)
    ensures var r := BinaryLevel(toks, cur, l);
            r.Success? ==> Canonical(r.value.expr) && Prec(r.value.expr) >= Index(l)
    decreases |toks| - cur, 3 + 2 * (3 - Index(l))
  {
    OperandCanonical(toks, cur, l);
    var first := LevelOperand(toks, cur, l);
    if first.Success? {
      FoldCanonical(toks, l, first.value.expr, first.value.next);
    }
  }

  lemma {:induction false} OperandCanonical(toks: seq<Token>, cur: nat, l: Level)
    requires Terminated(toks, cur) && Scanner.LiteralsTyped(toks)
    ensures var r := LevelOperand(toks, cur, l);
            r.Success? ==> Canonical(r.value.expr) && Prec(r.value.expr) > Index(l)
    decreases |toks| - cur, 2 + 2 * (3 - Index(l))
  {
    if l == Factor {
      UnaryCanonical(toks, cur);
    } else {
      LevelCanonical(toks, cur, Tighter(l));
    }
  }

  lemma {:induction false} FoldCanonical(toks: seq<Token>, l: Level, left: Expr, cur: nat)
    requires Terminated(toks, cur) && Scanner.LiteralsTyped(toks)
    requires Canonical(left) && Prec(left) >= Index(l)
    ensures var r := FoldLevel(toks, l, left, cur);
            r.Success? ==> Canonical(r.value.expr) && Prec(r.value.expr) >= Index(l)
    decreases |toks| - cur, 2 + 2 * (3 - Index(l))
  {
    hide LevelOperand, UnaryLevel, Primary, Expression, BinaryLevel;
    if MatchAny(toks, cur, Operators(l)) {
      OperandCanonical(toks, cur + 1, l);
      var right := LevelOperand(toks, cur + 1, l);
      if right.Success? {
        FoldCanonical(toks, l, Binary(toks[cur], left, right.value.expr), right.value.next);
      }
    }
  }

  lemma {:induction false} UnaryCanonical(toks: seq<Token>, cur: nat)
    requires Terminated(toks, cur) && Scanner.LiteralsTyped(toks)
    ensures var r := UnaryLevel(toks, cur);
            r.Success? ==> Canonical(r.value.expr) && Prec(r.value.expr) >= 4
    decreases |toks| - cur, 1
  {
    hide LevelOperand, BinaryLevel, FoldLevel, Expression, Primary;
    if MatchAny(toks, cur, {Minus, Bang}) {
      UnaryCanonical(toks, cur + 1);
    } else {
      PrimaryCanonical(toks, cur);
    }
  }

  lemma {:induction false} PrimaryCanonical(toks: seq<Token>, cur: nat)
    requires Terminated(toks, cur) && Scanner.LiteralsTyped(toks)
    ensures var r := Primary(toks, cur);
            r.Success? ==> Canonical(r.value.expr) && Prec(r.value.expr) == 5
    decreases |toks| - cur, 0
  {
    hide LevelOperand, BinaryLevel, FoldLevel, Expression, UnaryLevel;
    if MatchAny(toks, cur, {LeftParen}) {
      ExpressionCanonical(toks, cur + 1);
    }
  }

  /** Every tree parsed from scanned tokens is canonical. */
  lemma ParsedIsCanonical(toks: seq<Token>)
    requires Terminated(toks, 0) && Scanner.LiteralsTyped(toks)
    ensures Parse(toks).Success? ==> Canonical(Parse(toks).value)
  {
    ExpressionCanonical(toks, 0);
  }

  // ---------------------------------------------------------------------
  // Canonical trees parse back from their tokens

  /** How many tokens `e` is written with. */
  function Width(e: Expr): (w: nat)
    ensures w >= 1
  {
    match e
    case Literal(_) => 1
    case Grouping(inner) => Width(inner) + 2
    case Unary(_, right) => 1 + Width(right)
    case Binary(_, left, right) => Width(left) + 1 + Width(right)
  }

  /** The cursor just after `e`'s tokens when they start at `cur`. */
  function End(cur: nat, e: Expr): nat {
    cur + Width(e)
  }

  /**
   * `primary` reads token `t` as the literal `v`: a NUMBER or STRING token
   * carrying `v`, `true` or `false`, or `nil`, which it reads as the string
   * "null". Nothing reads as nil.
   */
  predicate ReadsAs(t: Token, v: Value) {
    match v
    case Num(_) => t.kind == Number && t.literal == v
    case Str(s) => (t.kind == String && t.literal == v) || (t.kind == Nil && s == "null")
    case Bool(b) => t.kind == (if b then True else False)
    case Null => false
  }

  /**
   * The tokens from `cur` on spell `e`: operator tokens are the tree's own,
   * literals and parentheses are matched by kind and value (the parser
   * never reads their lexemes or lines).
   */
  ghost predicate Spelled(toks: seq<Token>, cur: nat, e: Expr)
    decreases e
  {
    End(cur, e) <= |toks| &&
    match e
    case Literal(v) => ReadsAs(toks[cur], v)
    case Grouping(inner) =>
      toks[cur].kind == LeftParen && Spelled(toks, cur + 1, inner) && toks[End(cur + 1, inner)].kind == RightParen
    case Unary(op, right) => toks[cur] == op && Spelled(toks, cur + 1, right)
    case Binary(op, left, right) =>
      Spelled(toks, cur, left) && toks[End(cur, left)] == op && Spelled(toks, End(cur, left) + 1, right)
  }

  /** `e` is spelled from `cur` on, and an EOF token follows somewhere after it. */
  ghost predicate At(toks: seq<Token>, cur: nat, e: Expr) {
    Spelled(toks, cur, e) && Terminated(toks, End(cur, e))
  }

  lemma TerminatedEarlier(toks: seq<Token>, lo: nat, hi: nat)
    requires lo <= hi && Terminated(toks, hi)
    ensures Terminated(toks, lo)
  {
  }

  /** `Terminated` says what it promises: some EOF token lies at or after the cursor. */
  lemma {:induction false} TerminatedMeans(toks: seq<Token>, cur: nat)
    ensures Terminated(toks, cur) <==> exists j :: cur <= j < |toks| && toks[j].kind == Eof
    decreases |toks|
  {
    if |toks| > 0 && toks[|toks| - 1].kind != Eof {
      var init := toks[..|toks| - 1];
      TerminatedMeans(init, cur);
      if j :| cur <= j < |toks| && toks[j].kind == Eof {
        assert init[j] == toks[j];
      }
    }
  }

  /** The last EOF of a concatenation lies in its second part when that part has one. */
  lemma {:induction false} LastEofAppend(a: seq<Token>, b: seq<Token>)
    requires LastEof(b) >= 0
    ensures LastEof(a + b) == |a| + LastEof(b)
    decreases |b|
  {
    var ab := a + b;
    if b[|b| - 1].kind != Eof {
      assert ab[..|ab| - 1] == a + b[..|b| - 1];
      LastEofAppend(a, b[..|b| - 1]);
    }
  }

  lemma {:induction false} ExpressionRoundTrip(toks: seq<Token>, cur: nat, e: Expr)
    requires Canonical(e) && At(toks, cur, e) && !Binds(toks[End(cur, e)].kind, 0)
    ensures Terminated(toks, cur) && Expression(toks, cur) == Success(Parsed(e, End(cur, e)))
    decreases e, 16
  {
    LevelRoundTrip(toks, cur, Equality, e);
  }

  /** Level `l` parses `e` back when the token after it is no operator of `l` or tighter. */
  lemma {:induction false} LevelRoundTrip(toks: seq<Token>, cur: nat, l: Level, e: Expr)
    requires Canonical(e) && Prec(e) >= Index(l)
    requires At(toks, cur, e) && !Binds(toks[End(cur, e)].kind, Index(l))
    ensures Terminated(toks, cur) && BinaryLevel(toks, cur, l) == Success(Parsed(e, End(cur, e)))
    decreases e, 4 + 3 * (3 - Index(l)) + 2
  {
    LevelPrefix(toks, cur, l, e);
    assert !MatchAny(toks, End(cur, e), Operators(l));
  }

  /**
   * Level `l` reaches its loop with `e` built when the token after `e` is
   * no operator of a level tighter than `l`.
   */
  lemma {:induction false} LevelPrefix(toks: seq<Token>, cur: nat, l: Level, e: Expr)
    requires Canonical(e) && Prec(e) >= Index(l)
    requires At(toks, cur, e) && !Binds(toks[End(cur, e)].kind, Index(l) + 1)
    ensures Terminated(toks, cur) && BinaryLevel(toks, cur, l) == FoldLevel(toks, l, e, End(cur, e))
    decreases e, 4 + 3 * (3 - Index(l)) + 1
  {
    if Prec(e) > Index(l) {
      OperandRoundTrip(toks, cur, l, e);
    } else {
      BinaryPrefix(toks, cur, l, e);
    }
  }

  /** `LevelPrefix` for a node of level `l` itself: its left side is a prefix, its right side an operand. */
  lemma {:induction false} BinaryPrefix(toks: seq<Token>, cur: nat, l: Level, e: Expr)
    requires Canonical(e) && e.Binary? && LevelOf(e.op.kind) == Some(l)
    requires At(toks, cur, e) && !Binds(toks[End(cur, e)].kind, Index(l) + 1)
    ensures Terminated(toks, cur) && BinaryLevel(toks, cur, l) == FoldLevel(toks, l, e, End(cur, e))
    decreases e, 0
  {
    hide LevelOperand, UnaryLevel, Primary, Expression, BinaryLevel, FoldLevel, MatchAny;
    BinaryAt(toks, cur, e);
    BinaryParts(e, l);
    hide At, Spelled, Canonical, Prec, LevelOf, Binds;
    var mid := End(cur, e.left);
    LevelPrefix(toks, cur, l, e.left);
    OperandRoundTrip(toks, mid + 1, l, e.right);
    FoldStep(toks, l, e.left, mid, Parsed(e.right, End(cur, e)));
  }

  /** The operands of a canonical node of level `l`, and its operator, as its level's loop sees them. */
  lemma BinaryParts(e: Expr, l: Level)
    requires Canonical(e) && e.Binary? && LevelOf(e.op.kind) == Some(l)
    ensures Canonical(e.left) && Prec(e.left) >= Index(l)
    ensures Canonical(e.right) && Prec(e.right) > Index(l)
    ensures e.op.kind in Operators(l) && e.op.kind != Eof
  {
  }

  /** The tokens of a binary node: its left side's, then its operator, then its right side's. */
  lemma BinaryAt(toks: seq<Token>, cur: nat, e: Expr)
    requires e.Binary? && At(toks, cur, e)
    ensures var mid := End(cur, e.left);
            && Terminated(toks, cur)
            && At(toks, cur, e.left) && toks[mid] == e.op && Terminated(toks, mid)
            && At(toks, mid + 1, e.right) && End(mid + 1, e.right) == End(cur, e)
  {
    TerminatedEarlier(toks, cur, End(cur, e));
    TerminatedEarlier(toks, End(cur, e.left), End(cur, e));
  }

  /** One turn of a level's loop, given what its operand parser returns. */
  lemma FoldStep(toks: seq<Token>, l: Level, left: Expr, cur: nat, right: Parsed)
    requires Terminated(toks, cur) && toks[cur].kind in Operators(l)
    requires Terminated(toks, cur + 1) && LevelOperand(toks, cur + 1, l) == Success(right)
    requires Terminated(toks, right.next)
    ensures FoldLevel(toks, l, left, cur) == FoldLevel(toks, l, Binary(toks[cur], left, right.expr), right.next)
  {
  }

  /** An operand of level `l` is parsed back by the level below it. */
  lemma {:induction false} OperandRoundTrip(toks: seq<Token>, cur: nat, l: Level, e: Expr)
    requires Canonical(e) && Prec(e) > Index(l)
    requires At(toks, cur, e) && !Binds(toks[End(cur, e)].kind, Index(l) + 1)
    ensures Terminated(toks, cur) && LevelOperand(toks, cur, l) == Success(Parsed(e, End(cur, e)))
    decreases e, 4 + 3 * (3 - Index(l))
  {
    if l == Factor {
      UnaryRoundTrip(toks, cur, e);
    } else {
      LevelRoundTrip(toks, cur, Tighter(l), e);
    }
  }

  lemma {:induction false} UnaryRoundTrip(toks: seq<Token>, cur: nat, e: Expr)
    requires Canonical(e) && Prec(e) >= 4 && At(toks, cur, e)
    ensures Terminated(toks, cur) && UnaryLevel(toks, cur) == Success(Parsed(e, End(cur, e)))
    decreases e, 3
  {
    hide LevelOperand, BinaryLevel, FoldLevel, Expression, Primary;
    TerminatedEarlier(toks, cur, End(cur, e));
    if e.Unary? {
      assert Canonical(e.right) && Prec(e.right) >= 4 && At(toks, cur + 1, e.right);
      assert toks[cur] == e.op && MatchAny(toks, cur, {Minus, Bang});
      hide Canonical, Prec, At, Spelled;
      UnaryRoundTrip(toks, cur + 1, e.right);
      assert End(cur, e) == End(cur + 1, e.right);
    } else {
      PrimaryRoundTrip(toks, cur, e);
    }
  }

  lemma {:induction false} PrimaryRoundTrip(toks: seq<Token>, cur: nat, e: Expr)
    requires Canonical(e) && Prec(e) == 5 && At(toks, cur, e)
    ensures Terminated(toks, cur) && Primary(toks, cur) == Success(Parsed(e, End(cur, e)))
    ensures !MatchAny(toks, cur, {Minus, Bang})
    decreases e, 2
  {
    if e.Grouping? {
      GroupingRoundTrip(toks, cur, e);
    } else {
      hide LevelOperand, BinaryLevel, FoldLevel, Expression, UnaryLevel;
      TerminatedEarlier(toks, cur, End(cur, e));
      assert ReadsAs(toks[cur], e.value);
    }
  }

  lemma {:induction false} GroupingRoundTrip(toks: seq<Token>, cur: nat, e: Expr)
    requires Canonical(e) && e.Grouping? && At(toks, cur, e)
    ensures Terminated(toks, cur) && Primary(toks, cur) == Success(Parsed(e, End(cur, e)))
    ensures !MatchAny(toks, cur, {Minus, Bang})
    decreases e, 1
  {
    hide LevelOperand, BinaryLevel, FoldLevel, Expression, UnaryLevel, Primary;
    GroupingAt(toks, cur, e);
    var inner := e.inner;
    var close := End(cur + 1, inner);
    assert Canonical(inner) && !Binds(RightParen, 0);
    hide At, Spelled, Canonical, Prec, LevelOf, Binds;
    ExpressionRoundTrip(toks, cur + 1, inner);
    PrimaryGroup(toks, cur, inner, close);
  }

  /** A group as `Primary` reads it, given what the inner expression parses to. */
  lemma PrimaryGroup(toks: seq<Token>, cur: nat, inner: Expr, close: nat)
    requires Terminated(toks, cur) && toks[cur].kind == LeftParen
    requires Terminated(toks, cur + 1) && Expression(toks, cur + 1) == Success(Parsed(inner, close))
    requires Terminated(toks, close) && toks[close].kind == RightParen
    ensures Primary(toks, cur) == Success(Parsed(Grouping(inner), close + 1))
    ensures !MatchAny(toks, cur, {Minus, Bang})
  {
  }

  /** The tokens of a group: an opening parenthesis, the inner tree's tokens, a closing one. */
  lemma GroupingAt(toks: seq<Token>, cur: nat, e: Expr)
    requires e.Grouping? && At(toks, cur, e)
    ensures var close := End(cur + 1, e.inner);
            && Terminated(toks, cur) && toks[cur].kind == LeftParen
            && At(toks, cur + 1, e.inner) && toks[close].kind == RightParen && close + 1 == End(cur, e)
  {
    TerminatedEarlier(toks, cur, End(cur, e));
    TerminatedEarlier(toks, End(cur + 1, e.inner), End(cur, e));
  }

  /**
   * A token list that spells a canonical tree parses to that tree, as long
   * as the token after it is no binary operator (which would continue the
   * expression). The tokens after it are never read.
   */
  lemma ParseSpelled(toks: seq<Token>, e: Expr)
    requires Canonical(e) && At(toks, 0, e) && !Binds(toks[End(0, e)].kind, 0)
    ensures Terminated(toks, 0) && Parse(toks) == Success(e)
  {
    ExpressionRoundTrip(toks, 0, e);
  }

  /**
   * An error in the leading operand is the error of every level above it:
   * no level catches or replaces a parse error.
   */
  lemma {:induction false} OperandFailure(toks: seq<Token>, cur: nat, l: Level)
    requires Terminated(toks, cur) && UnaryLevel(toks, cur).Failure?
    ensures LevelOperand(toks, cur, l) == Failure(UnaryLevel(toks, cur).error)
    ensures BinaryLevel(toks, cur, l) == Failure(UnaryLevel(toks, cur).error)
    decreases 3 - Index(l)
  {
    if l != Factor {
      OperandFailure(toks, cur, Tighter(l));
    }
  }

  /** The kinds a primary or a unary expression can start with. */
  const ExpressionStarts: set<TokenType> := {Number, String, True, False, Nil, LeftParen, Minus, Bang}

  /**
   * A token no expression starts with is rejected on the spot: the
   * expression fails with "Expect expression" on that very token.
   */
  lemma NoExpressionStart(toks: seq<Token>, cur: nat)
    requires Terminated(toks, cur) && toks[cur].kind !in ExpressionStarts
    ensures Expression(toks, cur) == Failure(ParseError(toks[cur], ExpectExpression))
  {
    assert UnaryLevel(toks, cur) == Failure(ParseError(toks[cur], ExpectExpression));
    OperandFailure(toks, cur, Equality);
  }

  /**
   * After `(` the parser reads an expression and then demands `)`: an error
   * inside is the group's error, and any other token where the `)` is due
   * fails the group with "Expect ')' after expression." on that token.
   * Either way the whole expression fails with it.
   */
  lemma GroupFailure(toks: seq<Token>, cur: nat)
    requires Terminated(toks, cur) && toks[cur].kind == LeftParen
    ensures Terminated(toks, cur + 1)
    ensures var inner := Expression(toks, cur + 1);
            inner.Failure? ==>
              Primary(toks, cur) == Failure(inner.error) && Expression(toks, cur) == Failure(inner.error)
    ensures var inner := Expression(toks, cur + 1);
            inner.Success? && toks[inner.value.next].kind != RightParen ==>
              var err := ParseError(toks[inner.value.next], ExpectRightParen);
              Primary(toks, cur) == Failure(err) && Expression(toks, cur) == Failure(err)
  {
    hide BinaryLevel, LevelOperand, FoldLevel;
    assert LastEof(toks) != cur;
    var inner := Expression(toks, cur + 1);
    assert UnaryLevel(toks, cur) == Primary(toks, cur);
    if inner.Failure? || toks[inner.value.next].kind != RightParen {
      assert Primary(toks, cur).Failure?;
      OperandFailure(toks, cur, Equality);
      assert Expression(toks, cur) == BinaryLevel(toks, cur, Equality);
    }
  }

  /**
   * A level's first operand failing is the level's failure: the loop never
   * starts.
   */
  lemma LevelFailure(toks: seq<Token>, cur: nat, l: Level)
    requires Terminated(toks, cur) && LevelOperand(toks, cur, l).Failure?
    ensures BinaryLevel(toks, cur, l) == Failure(LevelOperand(toks, cur, l).error)
  {
  }

  /**
   * Once the loop has consumed an operator, a failing right operand is the
   * loop's failure: its error blames the token where the operand went
   * wrong, not the operator.
   */
  lemma FoldFailure(toks: seq<Token>, l: Level, left: Expr, cur: nat)
    requires Terminated(toks, cur) && MatchAny(toks, cur, Operators(l))
    requires LevelOperand(toks, cur + 1, l).Failure?
    ensures FoldLevel(toks, l, left, cur) == Failure(LevelOperand(toks, cur + 1, l).error)
  {
  }

  /** After `-` or `!`, a failing operand is the unary expression's failure. */
  lemma UnaryFailure(toks: seq<Token>, cur: nat)
    requires Terminated(toks, cur) && MatchAny(toks, cur, {Minus, Bang})
    requires UnaryLevel(toks, cur + 1).Failure?
    ensures UnaryLevel(toks, cur) == Failure(UnaryLevel(toks, cur + 1).error)
  {
  }

  // ---------------------------------------------------------------------
  // Parsed trees are spelled by the tokens they were read from

  lemma {:induction false} ExpressionSpelled(toks: seq<Token>, cur: nat)
    requires Terminated(toks, cur) && Scanner.LiteralsTyped(toks)
    ensures var r := Expression(toks, cur);
            r.Success? ==> && r.value.next == End(cur, r.value.expr) && Spelled(toks, cur, r.value.expr)
                           && !Binds(toks[r.value.next].kind, 0)
    decreases |toks| - cur, 10
  {
    LevelSpelled(toks, cur, Equality);
  }

  /** A level reads its tokens and stops at a token that continues no level as loose as itself or looser. */
  lemma {:induction false} LevelSpelled(toks: seq<Token>, cur: nat, l: Level)
    requires Terminated(toks, cur) && Scanner.LiteralsTyped(toks)
    ensures var r := BinaryLevel(toks, cur, l);
            r.Success? ==> && r.value.next == End(cur, r.value.expr) && Spelled(toks, cur, r.value.expr)
                           && !Binds(toks[r.value.next].kind, Index(l))
    decreases |toks| - cur, 3 + 2 * (3 - Index(l))
  {
    hide UnaryLevel, Primary, Expression, FoldLevel, LevelOperand;
    OperandSpelled(toks, cur, l);
    var first := LevelOperand(toks, cur, l);
    if first.Success? {
      FoldSpelled(toks, l, cur, first.value.expr, first.value.next);
    }
  }

  lemma {:induction false} OperandSpelled(toks: seq<Token>, cur: nat, l: Level)
    requires Terminated(toks, cur) && Scanner.LiteralsTyped(toks)
    ensures var r := LevelOperand(toks, cur, l);
            r.Success? ==> && r.value.next == End(cur, r.value.expr) && Spelled(toks, cur, r.value.expr)
                           && !Binds(toks[r.value.next].kind, Index(l) + 1)
    decreases |toks| - cur, 2 + 2 * (3 - Index(l))
  {
    hide UnaryLevel, Primary, Expression, FoldLevel, BinaryLevel;
    if l == Factor {
      UnarySpelled(toks, cur);
    } else {
      LevelSpelled(toks, cur, Tighter(l));
    }
  }

  /**
   * The loop of level `l`, with `left` read from `start` up to `cur`:
   * every step extends the spelling by an operator and an operand, and
   * the loop stops at a token that is no operator of this level or a
   * tighter one.
   */
  lemma {:induction false} FoldSpelled(toks: seq<Token>, l: Level, start: nat, left: Expr, cur: nat)
    requires Terminated(toks, cur) && Scanner.LiteralsTyped(toks)
    requires End(start, left) == cur && Spelled(toks, start, left)
    requires !Binds(toks[cur].kind, Index(l) + 1)
    ensures var r := FoldLevel(toks, l, left, cur);
            r.Success? ==> && r.value.next == End(start, r.value.expr) && Spelled(toks, start, r.value.expr)
                           && !Binds(toks[r.value.next].kind, Index(l))
    decreases |toks| - cur, 2 + 2 * (3 - Index(l))
  {
    hide UnaryLevel, Primary, Expression, BinaryLevel, LevelOperand, Spelled;
    if MatchAny(toks, cur, Operators(l)) {
      OperandSpelled(toks, cur + 1, l);
      var right := LevelOperand(toks, cur + 1, l);
      if right.Success? {
        var e := Binary(toks[cur], left, right.value.expr);
        SpelledBinary(toks, start, toks[cur], left, right.value.expr);
        FoldSpelled(toks, l, start, e, right.value.next);
      }
    }
  }

  lemma {:induction false} UnarySpelled(toks: seq<Token>, cur: nat)
    requires Terminated(toks, cur) && Scanner.LiteralsTyped(toks)
    ensures var r := UnaryLevel(toks, cur);
            r.Success? ==> r.value.next == End(cur, r.value.expr) && Spelled(toks, cur, r.value.expr)
    decreases |toks| - cur, 1
  {
    hide LevelOperand, BinaryLevel, FoldLevel, Expression, Primary;
    if MatchAny(toks, cur, {Minus, Bang}) {
      UnarySpelled(toks, cur + 1);
    } else {
      PrimarySpelled(toks, cur);
    }
  }

  /**
   * A primary is one literal token read as its value, or `(`, an
   * expression and `)`. The literal's value is the one the token carries
   * because tokens of literal kinds carry literals of their kind.
   */
  lemma {:induction false} PrimarySpelled(toks: seq<Token>, cur: nat)
    requires Terminated(toks, cur) && Scanner.LiteralsTyped(toks)
    ensures var r := Primary(toks, cur);
            r.Success? ==> r.value.next == End(cur, r.value.expr) && Spelled(toks, cur, r.value.expr)
    decreases |toks| - cur, 0
  {
    hide LevelOperand, BinaryLevel, FoldLevel, Expression, UnaryLevel;
    if MatchAny(toks, cur, {LeftParen}) {
      ExpressionSpelled(toks, cur + 1);
    }
  }

  /**
   * The converse of the round trip: whatever a whole parse of literal-typed
   * tokens returns is canonical, is spelled by the tokens from the start,
   * and is followed by a token that is no binary operator.
   */
  lemma ParsedIsSpelled(toks: seq<Token>)
    requires Terminated(toks, 0) && Scanner.LiteralsTyped(toks)
    ensures Parse(toks).Success? ==>
              var e := Parse(toks).value;
              Canonical(e) && At(toks, 0, e) && !Binds(toks[End(0, e)].kind, 0)
  {
    ExpressionCanonical(toks, 0);
    ExpressionSpelled(toks, 0);
  }

  /**
   * A whole parse of literal-typed tokens succeeds with `e` exactly when the
   * tokens spell the canonical tree `e` from the start and the token after
   * it is no binary operator.
   */
  lemma ParseCharacterised(toks: seq<Token>, e: Expr)
    requires Terminated(toks, 0) && Scanner.LiteralsTyped(toks)
    ensures Parse(toks) == Success(e) <==> Canonical(e) && At(toks, 0, e) && !Binds(toks[End(0, e)].kind, 0)
  {
    ParsedIsSpelled(toks);
    if Canonical(e) && At(toks, 0, e) && !Binds(toks[End(0, e)].kind, 0) {
      ParseSpelled(toks, e);
    }
  }

  // ---------------------------------------------------------------------
  // Writing a tree back out

  /**
   * The token a literal is written as. The parser reads a NUMBER or STRING
   * token's literal, never its lexeme, so a number's lexeme is left empty.
   */
  function LiteralToken(v: Value): Token {
    match v
    case Num(_) => Token(Number, "", v, 0)
    case Str(s) => Token(String, "\"" + s + "\"", v, 0)
    case Bool(b) => if b then Token(True, "true", Null, 0) else Token(False, "false", Null, 0)
    case Null => Token(Nil, "nil", Null, 0)
  }

  const LeftParenToken: Token := Token(LeftParen, "(", Null, 0)
  const RightParenToken: Token := Token(RightParen, ")", Null, 0)

  /** A tree written back out as tokens, in source order. */
  function Unparse(e: Expr): seq<Token> {
    match e
    case Literal(v) => [LiteralToken(v)]
    case Grouping(inner) => [LeftParenToken] + Unparse(inner) + [RightParenToken]
    case Unary(op, right) => [op] + Unparse(right)
    case Binary(op, left, right) => Unparse(left) + [op] + Unparse(right)
  }

  /** A canonical tree's tokens spell it, wherever they are placed. */
  lemma {:induction false} UnparseSpells(pre: seq<Token>, e: Expr, post: seq<Token>)
    requires Canonical(e)
    ensures |Unparse(e)| == Width(e)
    ensures Spelled(pre + Unparse(e) + post, |pre|, e)
    decreases e
  {
    hide Unparse, Spelled, Width;
    match e
    case Literal(v) =>
      UnparseLiteral(pre, v, post);
    case Grouping(inner) =>
      assert Canonical(inner);
      hide Canonical, Prec;
      UnparseSpells(pre + [LeftParenToken], inner, [RightParenToken] + post);
      UnparseGrouping(pre, inner, post);
    case Unary(op, right) =>
      assert Canonical(right);
      hide Canonical, Prec;
      UnparseSpells(pre + [op], right, post);
      UnparseUnary(pre, op, right, post);
    case Binary(op, left, right) =>
      assert Canonical(left) && Canonical(right);
      hide Canonical, Prec, LevelOf;
      UnparseSpells(pre, left, [op] + Unparse(right) + post);
      UnparseSpells(pre + Unparse(left) + [op], right, post);
      UnparseBinary(pre, op, left, right, post);
  }

  lemma UnparseLiteral(pre: seq<Token>, v: Value, post: seq<Token>)
    requires v != Null
    ensures |Unparse(Literal(v))| == Width(Literal(v))
    ensures Spelled(pre + Unparse(Literal(v)) + post, |pre|, Literal(v))
  {
    var toks := pre + Unparse(Literal(v)) + post;
    assert toks[|pre|] == LiteralToken(v);
  }

  lemma {:induction false} UnparseGrouping(pre: seq<Token>, inner: Expr, post: seq<Token>)
    requires |Unparse(inner)| == Width(inner)
    requires Spelled(pre + [LeftParenToken] + Unparse(inner) + ([RightParenToken] + post), |pre| + 1, inner)
    ensures |Unparse(Grouping(inner))| == Width(Grouping(inner))
    ensures Spelled(pre + Unparse(Grouping(inner)) + post, |pre|, Grouping(inner))
  {
    var toks := pre + Unparse(Grouping(inner)) + post;
    assert toks == pre + [LeftParenToken] + Unparse(inner) + ([RightParenToken] + post);
    assert toks[|pre|] == LeftParenToken;
    assert toks[|pre| + 1 + Width(inner)] == RightParenToken;
  }

  lemma UnparseUnary(pre: seq<Token>, op: Token, right: Expr, post: seq<Token>)
    requires |Unparse(right)| == Width(right)
    requires Spelled(pre + [op] + Unparse(right) + post, |pre| + 1, right)
    ensures |Unparse(Unary(op, right))| == Width(Unary(op, right))
    ensures Spelled(pre + Unparse(Unary(op, right)) + post, |pre|, Unary(op, right))
  {
    var toks := pre + Unparse(Unary(op, right)) + post;
    assert toks == pre + [op] + Unparse(right) + post;
    assert toks[|pre|] == op;
  }

  lemma UnparseBinary(pre: seq<Token>, op: Token, left: Expr, right: Expr, post: seq<Token>)
    requires |Unparse(left)| == Width(left) && |Unparse(right)| == Width(right)
    requires Spelled(pre + Unparse(left) + ([op] + Unparse(right) + post), |pre|, left)
    requires Spelled(pre + Unparse(left) + [op] + Unparse(right) + post, |pre| + Width(left) + 1, right)
    ensures |Unparse(Binary(op, left, right))| == Width(Binary(op, left, right))
    ensures Spelled(pre + Unparse(Binary(op, left, right)) + post, |pre|, Binary(op, left, right))
  {
    hide Spelled;
    var a, b := Unparse(left), Unparse(right);
    assert Unparse(Binary(op, left, right)) == a + [op] + b;
    assert Width(Binary(op, left, right)) == |a| + 1 + |b|;
    hide Unparse, Width;
    var toks := pre + a + [op] + b + post;
    assert pre + (a + [op] + b) + post == toks;
    assert pre + a + ([op] + b + post) == toks;
    assert toks[|pre| + |a|] == op;
    SpelledBinary(toks, |pre|, op, left, right);
  }

  /** A binary node is spelled by its left operand, its operator and its right operand in a row. */
  lemma SpelledBinary(toks: seq<Token>, cur: nat, op: Token, left: Expr, right: Expr)
    requires Spelled(toks, cur, left) && End(cur, left) < |toks| && toks[End(cur, left)] == op
    requires Spelled(toks, End(cur, left) + 1, right)
    ensures Spelled(toks, cur, Binary(op, left, right))
  {
  }

  /**
   * A canonical tree written out as tokens parses back to itself, whatever
   * follows it, as long as the next token is no binary operator.
   */
  lemma ParseUnparse(e: Expr, rest: seq<Token>)
    requires Canonical(e)
    requires Terminated(rest, 0) && !Binds(rest[0].kind, 0)
    ensures Terminated(Unparse(e) + rest, 0)
    ensures Parse(Unparse(e) + rest) == Success(e)
  {
    var toks := Unparse(e) + rest;
    UnparseSpells([], e, rest);
    assert [] + Unparse(e) + rest == toks;
    assert toks[End(0, e)] == rest[0];
    LastEofAppend(Unparse(e), rest);
    ParseSpelled(toks, e);
  }

  // ---------------------------------------------------------------------
  // Error text

  /** The line number in an error text reads back, as the scanner reads digits, as the line itself. */
  lemma {:induction false} NatToStringValue(n: nat)
    ensures Scanner.DigitsValue(NatToString(n)) == n
  {
    var s := NatToString(n);
    var d := ['0' + (n % 10) as char];
    if n < 10 {
      assert s == d && s[..0] == [];
    } else {
      assert s == NatToString(n / 10) + d;
      assert s[..|s| - 1] == NatToString(n / 10);
      NatToStringValue(n / 10);
    }
  }

  /**
   * The fields of an error text can be read back: it starts with the
   * lexeme, then the kind's name, then the line in decimal digits that
   * read back as the line, and it ends with the message in `at '...'`.
   */
  lemma ErrorTextFields(e: ParseError, kindName: TokenType -> string)
    ensures var text, lexeme, kind, digits := ErrorText(e, kindName), e.token.lexeme, kindName(e.token.kind), NatToString(e.token.line);
            var k := |lexeme| + 1 + |kind| + 1;
            && |text| == k + |digits| + 5 + |e.message| + 1
            && text[..|lexeme|] == lexeme
            && text[|lexeme|] == ' '
            && text[|lexeme| + 1..k - 1] == kind
            && text[k - 1] == ' '
            && Scanner.DigitsValue(text[k..k + |digits|]) == e.token.line
            && text[k + |digits|..k + |digits| + 5] == " at '"
            && text[k + |digits| + 5..|text| - 1] == e.message
            && text[|text| - 1] == '\''
  {
    var text, lexeme, kind, digits := ErrorText(e, kindName), e.token.lexeme, kindName(e.token.kind), NatToString(e.token.line);
    var k := |lexeme| + 1 + |kind| + 1;
    NatToStringValue(e.token.line);
    assert text == lexeme + " " + kind + " " + digits + " at '" + e.message + "'";
    assert text[k..k + |digits|] == digits;
  }
}

=== FILE: printer_props.dfy ===
/**
 * What the diagnostic printer promises: one pair of parentheses per
 * operator or group node, and nothing else in parentheses as long as the
 * leaves' own text has none.
 */
module PrinterProperties {
  import opened Values
  import opened Tokens
  import opened Ast
  import opened AstPrinter

  /** How many times `c` occurs in `s`. */
  function Count(c: char, s: string): nat {
    if |s| == 0 then 0 else Count(c, s[..|s| - 1]) + (if s[|s| - 1] == c then 1 else 0)
  }

  lemma {:induction false} CountAppend(c: char, a: string, b: string)
    ensures Count(c, a + b) == Count(c, a) + Count(c, b)
    decreases |b|
  {
    if |b| > 0 {
      assert (a + b)[..|a + b| - 1] == a + b[..|b| - 1];
      assert (a + b)[|a + b| - 1] == b[|b| - 1];
      CountAppend(c, a, b[..|b| - 1]);
    } else {
      assert a + b == a;
    }
  }

  lemma {:induction false} CountAbsent(c: char, s: string)
    requires c !in s
    ensures Count(c, s) == 0
    decreases |s|
  {
    if |s| > 0 {
      assert s[..|s| - 1] <= s;
      CountAbsent(c, s[..|s| - 1]);
    }
  }

  /** No parenthesis in `s`. */
  predicate Plain(s: string) {
    '(' !in s && ')' !in s
  }

  /** Every operator lexeme and literal text in `e` is free of parentheses. */
  predicate PlainLeaves(e: Expr, showNum: real -> string) {
    match e
    case Literal(v) => v == Null || Plain(Show(v, showNum))
    case Unary(op, r) => Plain(op.lexeme) && PlainLeaves(r, showNum)
    case Binary(op, l, r) => Plain(op.lexeme) && PlainLeaves(l, showNum) && PlainLeaves(r, showNum)
    case Grouping(inner) => PlainLeaves(inner, showNum)
  }

  /** The nodes the printer wraps in parentheses: all but the literals. */
  function Wrapped(e: Expr): nat {
    match e
    case Literal(_) => 0
    case Unary(_, r) => 1 + Wrapped(r)
    case Binary(_, l, r) => 1 + Wrapped(l) + Wrapped(r)
    case Grouping(inner) => 1 + Wrapped(inner)
  }

  /**
   * A literal prints as its value's text: `nil` for a literal holding no
   * value, `true` or `false`, a string's characters without quotes, and a
   * number in the caller's `%v` form.
   */
  lemma PrintLiteral(v: Value, showNum: real -> string)
    ensures v == Null ==> PrintExpr(Literal(v), showNum) == "nil"
    ensures v.Bool? ==> PrintExpr(Literal(v), showNum) == (if v.b then "true" else "false")
    ensures v.Str? ==> PrintExpr(Literal(v), showNum) == v.s
    ensures v.Num? ==> PrintExpr(Literal(v), showNum) == showNum(v.n)
  {
  }

  /** A binary node prints as its operator and both operands, in parentheses. */
  lemma PrintBinary(op: Token, left: Expr, right: Expr, showNum: real -> string)
    ensures PrintExpr(Binary(op, left, right), showNum)
            == "(" + op.lexeme + " " + PrintExpr(left, showNum) + " " + PrintExpr(right, showNum) + ")"
  {
    var l, r := PrintExpr(left, showNum), PrintExpr(right, showNum);
    assert PrintExpr(Binary(op, left, right), showNum) == Parenthesize(op.lexeme, [l, r]);
    hide PrintExpr;
    assert JoinSpaced([l, r]) == " " + l + JoinSpaced([r]) by {
      assert [l, r][1..] == [r];
    }
    assert JoinSpaced([r]) == " " + r + JoinSpaced([]);
    hide JoinSpaced;
    var name := "(" + op.lexeme;
    assert Parenthesize(op.lexeme, [l, r]) == name + (" " + l + (" " + r + "")) + ")";
    assert name + (" " + l + (" " + r + "")) + ")" == name + " " + l + " " + r + ")";
  }

  /** A unary node prints as its operator and its operand, in parentheses. */
  lemma PrintUnary(op: Token, right: Expr, showNum: real -> string)
    ensures PrintExpr(Unary(op, right), showNum) == "(" + op.lexeme + " " + PrintExpr(right, showNum) + ")"
  {
    var r := PrintExpr(right, showNum);
    assert PrintExpr(Unary(op, right), showNum) == Parenthesize(op.lexeme, [r]);
    hide PrintExpr;
    assert JoinSpaced([r]) == " " + r + JoinSpaced([]);
    hide JoinSpaced;
    assert Parenthesize(op.lexeme, [r]) == "(" + op.lexeme + (" " + r + "") + ")";
  }

  /** A parenthesised expression prints as `group` and its inner expression, in parentheses. */
  lemma PrintGrouping(inner: Expr, showNum: real -> string)
    ensures PrintExpr(Grouping(inner), showNum) == "(group " + PrintExpr(inner, showNum) + ")"
  {
    var r := PrintExpr(inner, showNum);
    assert PrintExpr(Grouping(inner), showNum) == Parenthesize("group", [r]);
    hide PrintExpr;
    assert JoinSpaced([r]) == " " + r + JoinSpaced([]);
    hide JoinSpaced;
    assert Parenthesize("group", [r]) == "(" + "group" + (" " + r + "") + ")";
  }

  /** Wrapping text in a pair of parentheses adds one of each. */
  lemma CountWrapped(c: char, m: string)
    requires c == '(' || c == ')'
    ensures Count(c, "(" + m + ")") == 1 + Count(c, m)
  {
    var open, close := if c == '(' then 1 else 0, if c == ')' then 1 else 0;
    assert Count(c, "(") == open && Count(c, ")") == close by {
      assert "("[..0] == [] && ")"[..0] == [];
    }
    CountAppend(c, "(", m);
    CountAppend(c, "(" + m, ")");
  }

  /** Joining two pieces with a space adds no parenthesis. */
  lemma CountSpaced(c: char, a: string, b: string)
    requires c == '(' || c == ')'
    ensures Count(c, a + " " + b) == Count(c, a) + Count(c, b)
  {
    CountAbsent(c, " ");
    CountAppend(c, a, " ");
    CountAppend(c, a + " ", b);
  }

  /** The parentheses of `Parenthesize` around one or two operands, for a name without any. */
  lemma ParenthesizeCount(c: char, name: string, parts: seq<string>)
    requires c == '(' || c == ')'
    requires Plain(name) && 1 <= |parts| <= 2
    ensures Count(c, Parenthesize(name, parts))
            == 1 + Count(c, parts[0]) + (if |parts| == 2 then Count(c, parts[1]) else 0)
  {
    CountAbsent(c, name);
    if |parts| == 1 {
      assert Parenthesize(name, parts) == "(" + (name + " " + parts[0]) + ")" by {
        assert parts[1..] == [];
        assert JoinSpaced(parts) == " " + parts[0];
      }
      hide Parenthesize, JoinSpaced;
      CountWrapped(c, name + " " + parts[0]);
      CountSpaced(c, name, parts[0]);
    } else {
      assert Parenthesize(name, parts) == "(" + (name + " " + parts[0] + " " + parts[1]) + ")" by {
        var rest := parts[1..];
        assert rest[0] == parts[1] && rest[1..] == [];
        assert JoinSpaced(rest) == " " + parts[1];
      }
      hide Parenthesize, JoinSpaced;
      CountWrapped(c, name + " " + parts[0] + " " + parts[1]);
      CountSpaced(c, name + " " + parts[0], parts[1]);
      CountSpaced(c, name, parts[0]);
    }
  }

  /**
   * Each operator and group node adds exactly one opening and one closing
   * parenthesis, so the printed text has as many of each as the tree has
   * such nodes.
   */
  lemma {:induction false} PrintedParentheses(e: Expr, showNum: real -> string, c: char)
    requires c == '(' || c == ')'
    requires PlainLeaves(e, showNum)
    ensures Count(c, PrintExpr(e, showNum)) == Wrapped(e)
  {
    match e
    case Literal(v) =>
      if v == Null {
        CountAbsent(c, "nil");
      } else {
        CountAbsent(c, Show(v, showNum));
      }
    case Unary(op, r) =>
      PrintedParentheses(r, showNum, c);
      ParenthesizeCount(c, op.lexeme, [PrintExpr(r, showNum)]);
    case Binary(op, l, r) =>
      PrintedParentheses(l, showNum, c);
      PrintedParentheses(r, showNum, c);
      ParenthesizeCount(c, op.lexeme, [PrintExpr(l, showNum), PrintExpr(r, showNum)]);
    case Grouping(inner) =>
      PrintedParentheses(inner, showNum, c);
      ParenthesizeCount(c, "group", [PrintExpr(inner, showNum)]);
  }
}

=== FILE: scanner.dfy ===
/**
 * The scanner: one left-to-right pass over the source with a lexeme start,
 * a lookahead cursor and a line counter. Each step recognises one lexeme and
 * yields at most one token or one lexical error; errors never stop the scan.
 * The source is a Go string indexed by byte; here each byte is one `char`.
 */
module Scanner {
  import opened Wrappers
  import opened Values
  import opened Tokens

  const UnexpectedCharacter: string := "Unexpected character."
  const UnterminatedString: string := "Unterminated string."

  /** A lexical error: the line the scanner had reached, and the message. */
  datatype LexError = LexError(line: nat, message: string)

  /** Everything a scan returns: the tokens (ending with EOF) and the errors. */
  datatype Scan = Scan(tokens: seq<Token>, errors: seq<LexError>)

  /**
   * The outcome of scanning one lexeme that starts at some position: where
   * the next lexeme starts, the line counter afterwards, and the token or
   * error (if any) that the lexeme produced.
   */
  datatype Step = Step(next: nat, line: nat, token: Option<Token>, error: Option<LexError>)

  // Character classes (ASCII only, as in the source).

  predicate IsDigit(c: char) {
    '0' <= c <= '9'
  }

  predicate IsAlpha(c: char) {
    'a' <= c <= 'z' || 'A' <= c <= 'Z' || c == '_'
  }

  predicate IsAlphaNumeric(c: char) {
    IsAlpha(c) || IsDigit(c)
  }

  predicate NotQuote(c: char) {
    c != '"'
  }

  predicate NotNewline(c: char) {
    c != '\n'
  }

  /** The number of newline characters in `src[lo..hi]`. */
  function Newlines(src: string, lo: nat, hi: nat): nat
    requires lo <= hi <= |src|
    decreases hi
  {
    if lo == hi then 0 else Newlines(src, lo, hi - 1) + (if src[hi - 1] == '\n' then 1 else 0)
  }

  lemma {:induction false} NewlinesAdd(src: string, lo: nat, mid: nat, hi: nat)
    requires lo <= mid <= hi <= |src|
    ensures Newlines(src, lo, hi) == Newlines(src, lo, mid) + Newlines(src, mid, hi)
    decreases hi - mid
  {
    if mid < hi {
      NewlinesAdd(src, lo, mid, hi - 1);
    }
  }

  lemma {:induction false} NoNewlines(src: string, lo: nat, hi: nat)
    requires lo <= hi <= |src|
    requires forall i :: lo <= i < hi ==> src[i] != '\n'
    ensures Newlines(src, lo, hi) == 0
    decreases hi - lo
  {
    if lo < hi {
      NoNewlines(src, lo, hi - 1);
    }
  }

  // The source's lookahead helpers.

  /** The character at `pos`, or NUL past the end of the source. */
  function Peek(src: string, pos: nat): char {
    if pos < |src| then src[pos] else '\0'
  }

  /** Whether the character at `pos` exists and is `expected`. */
  predicate Match(src: string, pos: nat, expected: char) {
    pos < |src| && src[pos] == expected
  }

  /**
   * Where the cursor stops when it advances from `pos` while the current
   * character satisfies `p` and the end has not been reached.
   */
  function RunEnd(src: string, pos: nat, p: char -> bool): (r: nat)
    requires pos <= |src|
    ensures pos <= r <= |src|
    ensures forall i :: pos <= i < r ==> p(src[i])
    ensures r == |src| || !p(src[r])
    decreases |src| - pos
  {
    if pos == |src| || !p(src[pos]) then pos else RunEnd(src, pos + 1, p)
  }

  /** `RunEnd` is the first position from `pos` on that fails `p`. */
  lemma RunEndAt(src: string, pos: nat, p: char -> bool, k: nat)
    requires pos <= k <= |src|
    requires forall i :: pos <= i < k ==> p(src[i])
    requires k == |src| || !p(src[k])
    ensures RunEnd(src, pos, p) == k
  {
  }

  /**
   * A token as the scanner emits it for the lexeme `src[start..next]`: never
   * EOF, carrying the whole lexeme and the current line, with a number
   * literal on NUMBER, a string literal on STRING and no literal otherwise.
   */
  ghost predicate EmittedFor(src: string, start: nat, next: nat, line: nat, t: Token)
    requires start <= next <= |src|
  {
    && t.kind != Eof
    && t.lexeme == src[start..next]
    && t.line == line
    && (t.kind == Number ==> t.literal.Num?)
    && (t.kind == String ==> t.literal.Str?)
    && (t.kind != Number && t.kind != String ==> t.literal == Null)
  }

  /** A lexeme of `kind` without a literal (the source's addToken). */
  function Emit(src: string, start: nat, next: nat, line: nat, kind: TokenType): Step
    requires start <= next <= |src|
  {
    Step(next, line, Some(Token(kind, src[start..next], Null, line)), None)
  }

  /** A lexeme that produces nothing (whitespace, newline, comment). */
  function Skip(next: nat, line: nat): Step {
    Step(next, line, None, None)
  }

  /** The value of a run of decimal digits. */
  function DigitsValue(s: string): nat {
    if |s| == 0 then 0
    else DigitsValue(s[..|s| - 1]) * 10 + (if IsDigit(s[|s| - 1]) then s[|s| - 1] as int - '0' as int else 0)
  }

  function Pow10(n: nat): (r: nat)
    ensures r > 0
  {
    if n == 0 then 1 else 10 * Pow10(n - 1)
  }

  /**
   * The exact decimal value of a number lexeme `digits` or `digits.digits`
   * (the source rounds it to the nearest float64).
   */
  function DecimalValue(lexeme: string): real {
    var intEnd := RunEnd(lexeme, 0, IsDigit);
    if intEnd < |lexeme| then
      DigitsValue(lexeme[..intEnd]) as real
        + DigitsValue(lexeme[intEnd + 1..]) as real / Pow10(|lexeme| - intEnd - 1) as real
    else
      DigitsValue(lexeme) as real
  }

  /** A string literal whose opening quote is at `start`. */
  function ScanString(src: string, start: nat, line: nat): (r: Step)
    requires start < |src| && src[start] == '"'
    ensures start < r.next <= |src|
    ensures r.line == line + Newlines(src, start, r.next)
    ensures r.token.Some? != r.error.Some?
    ensures r.token.Some? ==> EmittedFor(src, start, r.next, r.line, r.token.value)
    ensures r.error.Some? ==> r.error.value.line == r.line
  {
    var end := RunEnd(src, start + 1, NotQuote);
    var line' := line + Newlines(src, start + 1, end);
    NewlinesAdd(src, start, start + 1, end);
    if end == |src| then
      Step(end, line', None, Some(LexError(line', UnterminatedString)))
    else
      Step(end + 1, line', Some(Token(String, src[start..end + 1], Str(src[start + 1..end]), line')), None)
  }

  /** Where a number lexeme starting with the digit at `start` ends. */
  function NumberEnd(src: string, start: nat): (r: nat)
    requires start < |src| && IsDigit(src[start])
    ensures start < r <= |src|
    ensures forall i :: start <= i < r ==> IsDigit(src[i]) || src[i] == '.'
  {
    var intEnd := RunEnd(src, start + 1, IsDigit);
    if Match(src, intEnd, '.') && IsDigit(Peek(src, intEnd + 1)) then
      RunEnd(src, intEnd + 1, IsDigit)
    else
      intEnd
  }

  /** A number literal whose first digit is at `start`. */
  function ScanNumber(src: string, start: nat, line: nat): (r: Step)
    requires start < |src| && IsDigit(src[start])
    ensures start < r.next <= |src|
    ensures r.line == line + Newlines(src, start, r.next)
    ensures r.token.Some? && r.error.None?
    ensures EmittedFor(src, start, r.next, r.line, r.token.value)
  {
    var end := NumberEnd(src, start);
    NoNewlines(src, start, end);
    Step(end, line, Some(Token(Number, src[start..end], Num(DecimalValue(src[start..end])), line)), None)
  }

  /** An identifier or keyword whose first letter is at `start`. */
  function ScanIdentifier(src: string, start: nat, line: nat): (r: Step)
    requires start < |src| && IsAlpha(src[start])
    ensures start < r.next <= |src|
    ensures r.line == line + Newlines(src, start, r.next)
    ensures r.token.Some? && r.error.None?
    ensures EmittedFor(src, start, r.next, r.line, r.token.value)
  {
    var end := RunEnd(src, start + 1, IsAlphaNumeric);
    NoNewlines(src, start, end);
    var lexeme := src[start..end];
    Emit(src, start, end, line, if lexeme in Keywords then Keywords[lexeme] else Identifier)
  }

  /** One iteration of the scan loop: the lexeme that starts at `start`. */
  function ScanToken(src: string, start: nat, line: nat): (r: Step)
    requires start < |src|
    ensures start < r.next <= |src|
    ensures r.line == line + Newlines(src, start, r.next)
    ensures !(r.token.Some? && r.error.Some?)
    ensures r.token.Some? ==> EmittedFor(src, start, r.next, r.line, r.token.value)
    ensures r.error.Some? ==> r.error.value.line == r.line
  {
    var c := src[start];
    var cur := start + 1;
    assert src[start..cur] == [c];
    match c
    case '(' => Emit(src, start, cur, line, LeftParen)
    case ')' => Emit(src, start, cur, line, RightParen)
    case '{' => Emit(src, start, cur, line, LeftBrace)
    case '}' => Emit(src, start, cur, line, RightBrace)
    case ',' => Emit(src, start, cur, line, Comma)
    case '.' => Emit(src, start, cur, line, Dot)
    case '-' => Emit(src, start, cur, line, Minus)
    case '+' => Emit(src, start, cur, line, Plus)
    case ';' => Emit(src, start, cur, line, Semicolon)
    case '*' => Emit(src, start, cur, line, Star)
    case '!' => TwoChar(src, start, line, BangEqual, Bang)
    case '=' => TwoChar(src, start, line, EqualEqual, Equal)
    case '<' => TwoChar(src, start, line, LessEqual, Less)
    case '>' => TwoChar(src, start, line, GreaterEqual, Greater)
    case '/' =>
      if Match(src, cur, '/') then
        var end := RunEnd(src, cur + 1, NotNewline);
        NoNewlines(src, start, end);
        Skip(end, line)
      else
        Emit(src, start, cur, line, Slash)
    case ' ' => Skip(cur, line)
    case '\t' => Skip(cur, line)
    case '\r' => Skip(cur, line)
    case '\n' => Skip(cur, line + 1)
    case '"' => ScanString(src, start, line)
    case _ =>
      if IsDigit(c) then ScanNumber(src, start, line)
      else if IsAlpha(c) then ScanIdentifier(src, start, line)
      else Step(cur, line, None, Some(LexError(line, UnexpectedCharacter)))
  }

  /** `!`, `=`, `<`, `>`: the two-character kind when `=` follows, else the one-character kind. */
  function TwoChar(src: string, start: nat, line: nat, withEqual: TokenType, alone: TokenType): (r: Step)
    requires start < |src| && src[start] != '\n'
    requires withEqual != Eof && withEqual != Number && withEqual != String
    requires alone != Eof && alone != Number && alone != String
    ensures start < r.next <= |src|
    ensures r.line == line + Newlines(src, start, r.next)
    ensures r.token.Some? && r.error.None?
    ensures EmittedFor(src, start, r.next, r.line, r.token.value)
  {
    if Match(src, start + 1, '=') then
      NoNewlines(src, start, start + 2);
      Emit(src, start, start + 2, line, withEqual)
    else
      NoNewlines(src, start, start + 1);
      Emit(src, start, start + 1, line, alone)
  }

  /** The EOF token that closes every scan. */
  function EofToken(line: nat): Token {
    Token(Eof, "", Null, line)
  }

  /** Exactly one EOF token, and it is the last one. */
  predicate EndsWithSingleEof(tokens: seq<Token>) {
    && |tokens| > 0
    && tokens[|tokens| - 1].kind == Eof
    && forall i :: 0 <= i < |tokens| - 1 ==> tokens[i].kind != Eof
  }

  /** A token other than EOF in front of a scan's tokens keeps their single EOF last. */
  lemma PrependToken(t: Option<Token>, rest: seq<Token>)
    requires EndsWithSingleEof(rest) && (t.Some? ==> t.value.kind != Eof)
    ensures EndsWithSingleEof(OptionToSeq(t) + rest)
    ensures (OptionToSeq(t) + rest)[|OptionToSeq(t) + rest| - 1] == rest[|rest| - 1]
  {
    var all := OptionToSeq(t) + rest;
    forall i | 0 <= i < |all| - 1
      ensures all[i].kind != Eof
    {
      if t.Some? && i == 0 {
        assert all[i] == t.value;
      } else {
        assert all[i] == rest[i - |OptionToSeq(t)|];
      }
    }
  }

  /** NUMBER tokens carry a number and STRING tokens a string. */
  predicate LiteralsTyped(tokens: seq<Token>) {
    forall i :: 0 <= i < |tokens| ==>
      && (tokens[i].kind == Number ==> tokens[i].literal.Num?)
      && (tokens[i].kind == String ==> tokens[i].literal.Str?)
  }

  /**
   * The scan loop from cursor `pos` with the line counter at `line`: the
   * tokens end with exactly one EOF token, whose line is `line` plus the
   * newlines still ahead.
   */
  function ScanFrom(src: string, pos: nat, line: nat): (r: Scan)
    requires pos <= |src|
    ensures EndsWithSingleEof(r.tokens)
    ensures r.tokens[|r.tokens| - 1] == EofToken(line + Newlines(src, pos, |src|))
    decreases |src| - pos
  {
    if pos == |src| then
      Scan([EofToken(line)], [])
    else
      var st := ScanToken(src, pos, line);
      var rest := ScanFrom(src, st.next, st.line);
      NewlinesAdd(src, pos, st.next, |src|);
      PrependToken(st.token, rest.tokens);
      Scan(OptionToSeq(st.token) + rest.tokens, OptionToSeq(st.error) + rest.errors)
  }

  /** Scans a whole source: the cursor starts at 0 and so does the line counter. */
  function ScanTokens(src: string): (r: Scan)
    ensures EndsWithSingleEof(r.tokens)
    ensures r.tokens[|r.tokens| - 1] == EofToken(Newlines(src, 0, |src|))
  {
    ScanFrom(src, 0, 0)
  }

  /** The scan written as the source's loop, with mutable cursor, line and lists. */
  method ScanTokensLoop(src: string) returns (tokens: seq<Token>, errors: seq<LexError>)
    ensures Scan(tokens, errors) == ScanTokens(src)
  {
    var current: nat, line: nat := 0, 0;
    tokens, errors := [], [];
    while current < |src|
      invariant current <= |src|
      invariant Resume(tokens, errors, ScanFrom(src, current, line)) == ScanTokens(src)
      decreases |src| - current
    {
      hide ScanToken, ScanFrom;
      var step := ScanToken(src, current, line);
      var rest := ScanFrom(src, step.next, step.line);
      ScanStep(src, current, line, step);
      ResumeAppend(tokens, errors, OptionToSeq(step.token), OptionToSeq(step.error), rest);
      tokens := tokens + OptionToSeq(step.token);
      errors := errors + OptionToSeq(step.error);
      current, line := step.next, step.line;
    }
    tokens := tokens + [EofToken(line)];
  }

  /** What has been collected so far, followed by what the rest of the scan yields. */
  function Resume(tokens: seq<Token>, errors: seq<LexError>, rest: Scan): Scan {
    Scan(tokens + rest.tokens, errors + rest.errors)
  }

  /** Collecting more output first and resuming with the rest is the same as resuming with all of it. */
  lemma ResumeAppend(tokens: seq<Token>, errors: seq<LexError>, more: seq<Token>, moreErrors: seq<LexError>, rest: Scan)
    ensures Resume(tokens, errors, Scan(more + rest.tokens, moreErrors + rest.errors))
            == Resume(tokens + more, errors + moreErrors, rest)
  {
    assert tokens + (more + rest.tokens) == (tokens + more) + rest.tokens;
    assert errors + (moreErrors + rest.errors) == (errors + moreErrors) + rest.errors;
  }

  /** One lexeme further: a scan is the first lexeme's token and error, followed by the scan of the rest. */
  lemma ScanStep(src: string, pos: nat, line: nat, st: Step)
    requires pos < |src| && ScanToken(src, pos, line) == st
    ensures ScanFrom(src, pos, line)
            == Scan(OptionToSeq(st.token) + ScanFrom(src, st.next, st.line).tokens,
                    OptionToSeq(st.error) + ScanFrom(src, st.next, st.line).errors)
  {
  }
}

=== FILE: scanner_props.dfy ===
/**
 * Properties of the scanner: the lexeme rules of each step, and the shape of
 * a whole scan (where every token comes from, source order, line numbers).
 */
module ScannerProperties {
  import opened Wrappers
  import opened Values
  import opened Tokens
  import opened Scanner

  // ---------------------------------------------------------------------
  // Whole scans

  /** Where a token's lexeme lies in the source: `src[start..end]`. */
  datatype Span = Span(start: nat, end: nat)

  /** The source span of every non-EOF token of `ScanFrom(src, pos, line)`, in order. */
  function TokenSpans(src: string, pos: nat, line: nat): seq<Span>
    requires pos <= |src|
    decreases |src| - pos
  {
    if pos == |src| then []
    else
      var st := ScanToken(src, pos, line);
      (if st.token.Some? then [Span(pos, st.next)] else []) + TokenSpans(src, st.next, st.line)
  }

  /** One lexeme further: the span of the lexeme at `pos` when it makes a token, then those of the rest. */
  lemma SpansStep(src: string, pos: nat, line: nat)
    requires pos < |src|
    ensures var st := ScanToken(src, pos, line);
            TokenSpans(src, pos, line)
            == (if st.token.Some? then [Span(pos, st.next)] else []) + TokenSpans(src, st.next, st.line)
  {
  }

  lemma NoSpansAtEnd(src: string, pos: nat, line: nat)
    requires pos <= |src|
    ensures pos == |src| ==> TokenSpans(src, pos, line) == [] && ScanFrom(src, pos, line).tokens == [EofToken(line)]
  {
  }

  lemma {:induction false} SpanCount(src: string, pos: nat, line: nat)
    requires pos <= |src|
    ensures |TokenSpans(src, pos, line)| == |ScanFrom(src, pos, line).tokens| - 1
    decreases |src| - pos
  {
    hide ScanToken, ScanFrom, TokenSpans;
    NoSpansAtEnd(src, pos, line);
    if pos < |src| {
      var st := ScanToken(src, pos, line);
      assert ScanFrom(src, pos, line).tokens == OptionToSeq(st.token) + ScanFrom(src, st.next, st.line).tokens by {
        ScanStep(src, pos, line, st);
      }
      SpansStep(src, pos, line);
      SpanCount(src, st.next, st.line);
    }
  }

  /** The spans lie in `src[pos..]`, are non-empty, and come in source order without overlap. */
  lemma {:induction false} SpansOrdered(src: string, pos: nat, line: nat)
    requires pos <= |src|
    ensures var sp := TokenSpans(src, pos, line);
            && (forall i :: 0 <= i < |sp| ==> pos <= sp[i].start < sp[i].end <= |src|)
            && (forall i, j :: 0 <= i < j < |sp| ==> sp[i].end <= sp[j].start)
    decreases |src| - pos
  {
    hide ScanToken, ScanFrom, TokenSpans;
    NoSpansAtEnd(src, pos, line);
    if pos < |src| {
      var st := ScanToken(src, pos, line);
      SpansStep(src, pos, line);
      SpansOrdered(src, st.next, st.line);
    }
  }

  /**
   * Token `i` is emitted for span `i`: its lexeme is that slice of the
   * source, its line counts the newlines scanned up to the slice's end, and
   * its literal matches its kind.
   */
  lemma {:induction false} TokenMatchesSpan(src: string, pos: nat, line: nat, i: nat)
    requires pos <= |src|
    requires i < |TokenSpans(src, pos, line)|
    ensures var sp := TokenSpans(src, pos, line);
            var toks := ScanFrom(src, pos, line).tokens;
            && i < |toks| && pos <= sp[i].start < sp[i].end <= |src|
            && EmittedFor(src, sp[i].start, sp[i].end, line + Newlines(src, pos, sp[i].end), toks[i])
    decreases |src| - pos
  {
    hide ScanToken, ScanFrom, TokenSpans, EmittedFor, Newlines;
    NoSpansAtEnd(src, pos, line);
    var st := ScanToken(src, pos, line);
    if st.token.Some? && i == 0 {
      FirstSpan(src, pos, line);
    } else {
      var k := if st.token.Some? then i - 1 else i;
      LaterSpan(src, pos, line, i, k);
      TokenMatchesSpan(src, st.next, st.line, k);
      NewlinesAdd(src, pos, st.next, TokenSpans(src, pos, line)[i].end);
      assert line + Newlines(src, pos, TokenSpans(src, pos, line)[i].end)
             == st.line + Newlines(src, st.next, TokenSpans(src, pos, line)[i].end);
    }
  }

  /** The first lexeme's token, when it makes one, is the first token and has the first span. */
  lemma FirstSpan(src: string, pos: nat, line: nat)
    requires pos < |src| && ScanToken(src, pos, line).token.Some?
    ensures var st := ScanToken(src, pos, line);
            && 0 < |TokenSpans(src, pos, line)| && TokenSpans(src, pos, line)[0] == Span(pos, st.next)
            && 0 < |ScanFrom(src, pos, line).tokens| && ScanFrom(src, pos, line).tokens[0] == st.token.value
  {
    hide ScanToken, ScanFrom, TokenSpans;
    var st := ScanToken(src, pos, line);
    ScanStep(src, pos, line, st);
    SpansStep(src, pos, line);
  }

  /** Any later span and token are the rest's, shifted by the first lexeme's token if it made one. */
  lemma LaterSpan(src: string, pos: nat, line: nat, i: nat, k: nat)
    requires pos < |src| && i < |TokenSpans(src, pos, line)|
    requires var st := ScanToken(src, pos, line);
             !(st.token.Some? && i == 0) && k == if st.token.Some? then i - 1 else i
    ensures var st := ScanToken(src, pos, line);
            var restSp := TokenSpans(src, st.next, st.line);
            var restToks := ScanFrom(src, st.next, st.line).tokens;
            && k < |restSp| && k < |restToks| && i < |ScanFrom(src, pos, line).tokens|
            && TokenSpans(src, pos, line)[i] == restSp[k]
            && ScanFrom(src, pos, line).tokens[i] == restToks[k]
  {
    hide ScanToken, ScanFrom, TokenSpans;
    var st := ScanToken(src, pos, line);
    ScanStep(src, pos, line, st);
    SpansStep(src, pos, line);
    SpanCount(src, pos, line);
    SpanCount(src, st.next, st.line);
  }

  /**
   * Every token but the last (EOF) is emitted for a non-empty slice of the
   * source: its lexeme is that slice, its line is the number of newlines
   * scanned up to the slice's end, and its literal matches its kind. The
   * slices lie at or after the starting cursor, in source order, and never
   * overlap.
   */
  lemma {:induction false} TokensAreSourceSlices(src: string, pos: nat, line: nat)
    requires pos <= |src|
    ensures var toks := ScanFrom(src, pos, line).tokens;
            var sp := TokenSpans(src, pos, line);
            && |sp| == |toks| - 1
            && (forall i :: 0 <= i < |sp| ==>
                  && pos <= sp[i].start < sp[i].end <= |src|
                  && EmittedFor(src, sp[i].start, sp[i].end, line + Newlines(src, pos, sp[i].end), toks[i]))
            && (forall i, j :: 0 <= i < j < |sp| ==> sp[i].end <= sp[j].start)
  {
    hide ScanToken, ScanFrom, TokenSpans;
    SpanCount(src, pos, line);
    SpansOrdered(src, pos, line);
    forall i | 0 <= i < |TokenSpans(src, pos, line)| {
      TokenMatchesSpan(src, pos, line, i);
    }
  }

  /** NUMBER tokens of a scan carry numbers and STRING tokens strings. */
  lemma ScannedLiteralsTyped(src: string)
    ensures LiteralsTyped(ScanTokens(src).tokens)
  {
    hide ScanToken, ScanFrom, TokenSpans;
    var toks := ScanTokens(src).tokens;
    assert toks == ScanFrom(src, 0, 0).tokens;
    SpanCount(src, 0, 0);
    forall i | 0 <= i < |toks|
      ensures (toks[i].kind == Number ==> toks[i].literal.Num?) && (toks[i].kind == String ==> toks[i].literal.Str?)
    {
      if i < |TokenSpans(src, 0, 0)| {
        TokenMatchesSpan(src, 0, 0, i);
      } else {
        assert toks[i].kind == Eof;
      }
    }
  }

  /** On a whole source, token `i` sits on the line given by the newlines before its end. */
  lemma TokenLines(src: string, i: nat)
    requires i < |ScanTokens(src).tokens| - 1
    ensures var sp := TokenSpans(src, 0, 0);
            i < |sp| && sp[i].end <= |src| &&
            ScanTokens(src).tokens[i].line == Newlines(src, 0, sp[i].end)
  {
    hide ScanToken, ScanFrom, TokenSpans;
    TokensAreSourceSlices(src, 0, 0);
  }

  /**
   * An unterminated string swallows the rest of the source: from its quote
   * on, the scan yields no token but EOF and exactly one error.
   */
  lemma UnterminatedStringScan(src: string, start: nat, line: nat)
    requires start < |src| && src[start] == '"'
    requires forall i :: start < i < |src| ==> src[i] != '"'
    ensures ScanFrom(src, start, line)
            == Scan([EofToken(line + Newlines(src, start, |src|))],
                    [LexError(line + Newlines(src, start, |src|), UnterminatedString)])
  {
    UnterminatedStringStep(src, start, line);
  }

  // ---------------------------------------------------------------------
  // One lexeme

  /** The operators that take a trailing `=`: their one- and two-character kinds. */
  const EqualSuffixed: map<char, (TokenType, TokenType)> := map[
    '!' := (Bang, BangEqual), '=' := (Equal, EqualEqual),
    '<' := (Less, LessEqual), '>' := (Greater, GreaterEqual)
  ]

  /** Maximal munch: `!`, `=`, `<`, `>` take a following `=` and otherwise stand alone. */
  lemma OperatorMunch(src: string, start: nat, line: nat)
    requires start < |src| && src[start] in EqualSuffixed
    ensures var st := ScanToken(src, start, line);
            var kinds := EqualSuffixed[src[start]];
            && st.token.Some? && st.error.None? && st.line == line
            && (if start + 1 < |src| && src[start + 1] == '='
                then st.next == start + 2 && st.token.value.kind == kinds.1
                else st.next == start + 1 && st.token.value.kind == kinds.0)
  {
    var kinds := EqualSuffixed[src[start]];
    assert ScanToken(src, start, line) == TwoChar(src, start, line, kinds.1, kinds.0);
  }

  /** The single-character punctuation and the kind each one scans to. */
  const Punctuation: map<char, TokenType> := map[
    '(' := LeftParen, ')' := RightParen, '{' := LeftBrace, '}' := RightBrace,
    ',' := Comma, '.' := Dot, '-' := Minus, '+' := Plus, ';' := Semicolon, '*' := Star
  ]

  lemma SingleCharacter(src: string, start: nat, line: nat)
    requires start < |src| && src[start] in Punctuation
    ensures ScanToken(src, start, line)
            == Step(start + 1, line, Some(Token(Punctuation[src[start]], [src[start]], Null, line)), None)
  {
    assert src[start..start + 1] == [src[start]];
  }

  /**
   * `//` skips up to (not including) the next newline or the end of the
   * source and produces nothing.
   */
  lemma LineComment(src: string, start: nat, line: nat)
    requires start + 1 < |src| && src[start] == '/' && src[start + 1] == '/'
    ensures var st := ScanToken(src, start, line);
            && st.token.None? && st.error.None? && st.line == line
            && start + 2 <= st.next <= |src|
            && (st.next == |src| || src[st.next] == '\n')
            && forall i :: start + 2 <= i < st.next ==> src[i] != '\n'
  {
  }

  /** A `/` not followed by another `/` is the SLASH token. */
  lemma LoneSlash(src: string, start: nat, line: nat)
    requires start < |src| && src[start] == '/'
    requires !(start + 1 < |src| && src[start + 1] == '/')
    ensures ScanToken(src, start, line) == Step(start + 1, line, Some(Token(Slash, "/", Null, line)), None)
  {
    assert src[start..start + 1] == "/";
  }

  /** Spaces, tabs and carriage returns are skipped; a newline is skipped and counted. */
  lemma Whitespace(src: string, start: nat, line: nat)
    requires start < |src| && src[start] in {' ', '\t', '\r', '\n'}
    ensures ScanToken(src, start, line)
            == Step(start + 1, if src[start] == '\n' then line + 1 else line, None, None)
  {
  }

  /**
   * A string closed by the first quote after the opening one is one STRING
   * token: the lexeme keeps the quotes, the literal is the text strictly
   * between them (newlines included), and the line counts those newlines.
   */
  lemma {:induction false} ClosedString(src: string, start: nat, close: nat, line: nat)
    requires start < close < |src| && src[start] == '"' && src[close] == '"'
    requires forall i :: start < i < close ==> src[i] != '"'
    ensures var l := line + Newlines(src, start, close);
            ScanToken(src, start, line)
            == Step(close + 1, l, Some(Token(String, src[start..close + 1], Str(src[start + 1..close]), l)), None)
  {
    hide ScanToken, RunEnd, EmittedFor;
    StringDispatch(src, start, line);
    StringEnd(src, start, close);
    NewlinesAdd(src, start, start + 1, close);
    assert Newlines(src, start, start + 1) == 0;
    hide Newlines;
    var l := line + Newlines(src, start + 1, close);
    assert ScanString(src, start, line) == Step(close + 1, l, Some(Token(String, src[start..close + 1], Str(src[start + 1..close]), l)), None);
  }

  /** The run of non-quote characters after an opening quote stops at the first quote. */
  lemma StringEnd(src: string, start: nat, close: nat)
    requires start < close < |src| && src[close] == '"'
    requires forall i :: start < i < close ==> src[i] != '"'
    ensures RunEnd(src, start + 1, NotQuote) == close
  {
    RunEndAt(src, start + 1, NotQuote, close);
  }

  /** A double quote starts a string, whatever follows. */
  lemma StringDispatch(src: string, start: nat, line: nat)
    requires start < |src| && src[start] == '"'
    ensures ScanToken(src, start, line) == ScanString(src, start, line)
  {
  }

  /** An opening quote with no closing one: one "Unterminated string." error, no token. */
  lemma UnterminatedStringStep(src: string, start: nat, line: nat)
    requires start < |src| && src[start] == '"'
    requires forall i :: start < i < |src| ==> src[i] != '"'
    ensures var l := line + Newlines(src, start, |src|);
            ScanToken(src, start, line) == Step(|src|, l, None, Some(LexError(l, UnterminatedString)))
  {
    StringDispatch(src, start, line);
    hide ScanToken;
    RunEndAt(src, start + 1, NotQuote, |src|);
    NewlinesAdd(src, start, start + 1, |src|);
  }

  predicate AllDigits(s: string) {
    |s| > 0 && forall i :: 0 <= i < |s| ==> IsDigit(s[i])
  }

  /** Digits, optionally followed by `.` and at least one more digit. */
  predicate IsNumberLexeme(s: string) {
    AllDigits(s) || exists k :: 0 < k < |s| && s[k] == '.' && AllDigits(s[..k]) && AllDigits(s[k + 1..])
  }

  /**
   * A digit starts a NUMBER token whose lexeme has the number shape and is
   * maximal: no digit follows it, and when it has no fraction neither does
   * a `.` followed by a digit (so `3.` leaves the `.` for the next token).
   */
  lemma NumberToken(src: string, start: nat, line: nat)
    requires start < |src| && IsDigit(src[start])
    ensures var st := ScanToken(src, start, line);
            && st.token.Some? && st.error.None? && st.line == line
            && st.token.value.kind == Number
            && st.token.value.literal == Num(DecimalValue(src[start..st.next]))
            && NumberShaped(src, start, st.next)
  {
    assert ScanToken(src, start, line) == ScanNumber(src, start, line);
    hide ScanToken, DecimalValue;
    NumberEndShape(src, start);
  }

  /** Appending digits shifts the value left by one decimal place per digit. */
  lemma {:induction false} DigitsAppend(s: string, t: string)
    requires forall i :: 0 <= i < |t| ==> IsDigit(t[i])
    ensures DigitsValue(s + t) == DigitsValue(s) * Pow10(|t|) + DigitsValue(t)
    decreases |t|
  {
    if |t| == 0 {
      assert s + t == s;
    } else {
      var init := t[..|t| - 1];
      var d := t[|t| - 1] as int - '0' as int;
      assert DigitsValue(s + t) == DigitsValue(s + init) * 10 + d by {
        assert (s + t)[..|s + t| - 1] == s + init;
        assert (s + t)[|s + t| - 1] == t[|t| - 1];
      }
      assert DigitsValue(t) == DigitsValue(init) * 10 + d;
      assert Pow10(|t|) == Pow10(|init|) * 10;
      DigitsAppend(s, init);
      hide DigitsValue, Pow10;
      ShiftLeft(DigitsValue(s), Pow10(|init|), DigitsValue(init), d);
    }
  }

  lemma ShiftLeft(a: int, p: int, b: int, d: int)
    ensures (a * p + b) * 10 + d == a * (p * 10) + (b * 10 + d)
  {
  }

  lemma ScaleBack(a: real, b: real, p: real)
    requires p > 0.0
    ensures (a + b / p) * p == a * p + b
  {
  }

  /**
   * A NUMBER literal's value: a run of digits is its decimal value, and
   * with a fraction the value times ten to the number of fraction digits
   * is the value of the digits with the dot taken out.
   */
  lemma DecimalValueMeans(whole: string, fraction: string)
    requires forall i :: 0 <= i < |whole| ==> IsDigit(whole[i])
    requires forall i :: 0 <= i < |fraction| ==> IsDigit(fraction[i])
    ensures DecimalValue(whole) == DigitsValue(whole) as real
    ensures DecimalValue(whole + "." + fraction) * Pow10(|fraction|) as real == DigitsValue(whole + fraction) as real
  {
    hide DecimalValue, DigitsValue, Pow10, RunEnd;
    DecimalParts(whole, fraction);
    DigitsAppend(whole, fraction);
    var w, f, p := DigitsValue(whole), DigitsValue(fraction), Pow10(|fraction|);
    ScaleBack(w as real, f as real, p as real);
    CastShift(w, p, f);
  }

  lemma CastShift(w: int, p: int, f: int)
    ensures (w * p + f) as real == w as real * p as real + f as real
  {
  }

  /** `DecimalValue` splits a lexeme at its first non-digit, the dot. */
  lemma DecimalParts(whole: string, fraction: string)
    requires forall i :: 0 <= i < |whole| ==> IsDigit(whole[i])
    ensures DecimalValue(whole) == DigitsValue(whole) as real
    ensures DecimalValue(whole + "." + fraction)
            == DigitsValue(whole) as real + DigitsValue(fraction) as real / Pow10(|fraction|) as real
  {
    var lexeme := whole + "." + fraction;
    RunEndAt(whole, 0, IsDigit, |whole|);
    RunEndAt(lexeme, 0, IsDigit, |whole|);
    assert lexeme[..|whole|] == whole && lexeme[|whole| + 1..] == fraction;
  }

  /** `src[start..end]` is a number lexeme that cannot be extended. */
  predicate NumberShaped(src: string, start: nat, end: nat)
    requires start <= end <= |src|
  {
    && IsNumberLexeme(src[start..end])
    && (end == |src| || !IsDigit(src[end]))
    && (AllDigits(src[start..end]) && end + 1 < |src| && src[end] == '.' ==> !IsDigit(src[end + 1]))
  }

  lemma NumberEndShape(src: string, start: nat)
    requires start < |src| && IsDigit(src[start])
    ensures NumberShaped(src, start, NumberEnd(src, start))
  {
    var end := NumberEnd(src, start);
    var intEnd := RunEnd(src, start + 1, IsDigit);
    var lexeme := src[start..end];
    if Match(src, intEnd, '.') && IsDigit(Peek(src, intEnd + 1)) {
      var k := intEnd - start;
      assert end == RunEnd(src, intEnd + 1, IsDigit);
      assert lexeme[k] == '.';
      assert lexeme[..k] == src[start..intEnd];
      assert lexeme[k + 1..] == src[intEnd + 1..end];
      assert forall i :: start + 1 <= i < intEnd ==> IsDigit(src[i]);
      assert forall i :: intEnd + 1 <= i < end ==> IsDigit(src[i]);
      var whole, frac := lexeme[..k], lexeme[k + 1..];
      assert AllDigits(whole) by {
        forall i | 0 <= i < |whole|
          ensures IsDigit(whole[i])
        {
          assert whole[i] == src[start + i];
        }
      }
      assert AllDigits(frac) by {
        assert end > intEnd + 1;
        forall i | 0 <= i < |frac|
          ensures IsDigit(frac[i])
        {
          assert frac[i] == src[intEnd + 1 + i];
        }
      }
      assert IsNumberLexeme(lexeme);
      assert !AllDigits(lexeme) by {
        assert !IsDigit(lexeme[k]);
      }
    } else {
      assert AllDigits(lexeme);
    }
  }

  /**
   * A letter or `_` starts the maximal run of letters, digits and `_`; it is
   * the keyword's kind exactly when the run is a reserved word.
   */
  lemma IdentifierToken(src: string, start: nat, line: nat)
    requires start < |src| && IsAlpha(src[start])
    ensures var st := ScanToken(src, start, line);
            var lexeme := src[start..st.next];
            && st.token.Some? && st.error.None? && st.line == line
            && (forall i :: start <= i < st.next ==> IsAlphaNumeric(src[i]))
            && (st.next == |src| || !IsAlphaNumeric(src[st.next]))
            && (lexeme in Keywords ==> st.token.value.kind == Keywords[lexeme])
            && (st.token.value.kind == Identifier <==> lexeme !in Keywords)
  {
  }

  /** Every character a lexeme can start with. */
  predicate StartsLexeme(c: char) {
    c in Punctuation || c in EqualSuffixed || c in {'/', ' ', '\t', '\r', '\n', '"'} || IsDigit(c) || IsAlpha(c)
  }

  /** Any other character is one "Unexpected character." error and is skipped. */
  lemma UnexpectedCharacterStep(src: string, start: nat, line: nat)
    requires start < |src| && !StartsLexeme(src[start])
    ensures ScanToken(src, start, line) == Step(start + 1, line, None, Some(LexError(line, UnexpectedCharacter)))
  {
  }
}

=== FILE: tokens.dfy ===
/** Token kinds, the reserved-word table and the token record of the scanner. */
module Tokens {
  import opened Values

  datatype TokenType =
    // single-character tokens
    | LeftParen | RightParen | LeftBrace | RightBrace
    | Comma | Dot | Minus | Plus | Semicolon | Slash | Star
    // one- or two-character tokens
    | Bang | BangEqual | Equal | EqualEqual
    | Greater | GreaterEqual | Less | LessEqual
    // literals
    | Identifier | String | Number
    // keywords
    | And | Class | Else | False | Fun | For | If | Nil | Or
    | Print | Return | Super | This | True | Var | While
    // end of input
    | Eof

  /** The reserved words and the kind each one scans to. */
  const Keywords: map<string, TokenType> := map[
    "and" := And, "class" := Class, "else" := Else, "false" := False,
    "fun" := Fun, "for" := For, "if" := If, "nil" := Nil,
    "or" := Or, "print" := Print, "return" := Return, "super" := Super,
    "this" := This, "true" := True, "var" := Var, "while" := While
  ]

  /**
   * A scanned token. `literal` is the decoded value of a NUMBER or STRING
   * token and `Null` for every other kind; `line` counts the newlines seen
   * before the end of the lexeme (the scanner starts counting at 0).
   */
  datatype Token = Token(kind: TokenType, lexeme: string, literal: Value, line: nat)
}

=== FILE: values.dfy ===
/**
 * The dynamically typed values of the language. The source stores them in
 * Go `interface{}` slots; the only dynamic types the code ever produces are
 * float64, string, bool and nil, which become the four variants below.
 * Numbers are exact reals: the float64 rounding of the source is not modelled.
 */
module Values {

  datatype Value =
    | Num(n: real)
    | Str(s: string)
    | Bool(b: bool)
    | Null   // Go's nil interface value

  /** The dynamic type of a value, as a Go type switch would observe it. */
  datatype Kind = NumKind | StrKind | BoolKind | NullKind

  function KindOf(v: Value): Kind {
    match v
    case Num(_) => NumKind
    case Str(_) => StrKind
    case Bool(_) => BoolKind
    case Null => NullKind
  }
}

=== FILE: wrappers.dfy ===
/** Failure-carrying wrappers used in place of Go's panic/recover and nil results. */
module Wrappers {

  datatype Option<+T> = None | Some(value: T)

  /** Either a value or the one error that aborted the computation; usable with `:-`. */
  datatype Result<+T, +E> = Success(value: T) | Failure(error: E) {

    predicate IsFailure() {
      Failure?
    }

    function PropagateFailure<U>(): Result<U, E>
      requires Failure?
    {
      Failure(error)
    }

    function Extract(): T
      requires Success?
    {
      value
    }
  }

  /** The zero-or-one element sequence holding an optional value. */
  function OptionToSeq<T>(o: Option<T>): (s: seq<T>)
    ensures |s| <= 1
    ensures |s| == 1 <==> o.Some?
    ensures o.Some? ==> s[0] == o.value
  {
    match o
    case None => []
    case Some(v) => [v]
  }
}
